=== FILE: README.md ===
# NASA Ansible connectors, modelled in Dafny

The repository is a set of nine Ansible modules. Each one exposes a NASA (or
NASA-adjacent) web API as a single Ansible task. Most modules go through the same steps:

- reads its parameters;
- composes a request URL;
- makes one GET, or two when it downloads a picture;
- checks the status, in most modules;
- turns the response into text, YAML or bytes;
- writes a file on the host, with one of three policies: write once, truncate, or append (TLE and the rover photos module write nothing);
- reports a result dict through `exit_json` or `fail_json`.

In check mode each module stops early. Some stop before building the URL and
some after.

This project models the `run_module` function of each module, one Dafny
module per Python file:

| Dafny module | Python module |
|---|---|
| `NasaEonetEvents` | `nasa_eonet_events` |
| `NasaDonki` | `nasa_donki` |
| `NasaNeow` | `nasa_neow` |
| `NasaGenelab` | `nasa_genelab` |
| `NasaApod` | `nasa_apod` |
| `NasaTle` | `nasa_tle` |
| `NasaMarsWeather` | `nasa_mars_weather` |
| `NasaEarth` | `nasa_earth` |
| `NasaMarsRoverPhotos` | `nasa_mars_rover_photos` |

Four shared modules hold what every connector relies on:

- `Text`: Python's `rstrip`, `"".join`, `str.split`, and `int` formatting and parsing.
- `Values`: JSON values as Python sees them after `response.json()`. It covers truthiness, `d[k]`, `d.get(k)`, iteration, and f-string rendering of `None` and booleans.
- `Urls`: `key=value&...` query strings, with a parser used to show that a composed query carries exactly its pairs, in order.
- `Ansible`: the outcome of a run, the environment reads, and the class `Host`.

### The host

`Host` has three fields:

- `files`: a map from path to contents.
- `log`: the URLs fetched so far, in order. This counts the requests.
- `net`: the network, an oracle from URL to response (status, decoded JSON or `None`, text, bytes).

Writes happen in separate steps, as in the code. `Open` truncates or appends, and each `write` call is its own `Write`. A run that raises part-way through a loop therefore leaves the partial file the Python leaves.

### How a run ends

A run ends in one of four ways:

- `Exit(result)`: `exit_json`.
- `Fail(result)`: `fail_json`.
- `Crash`: an uncaught Python exception. Ansible reports a module failure with no result.
- `Rejected`: Ansible's argument check refused the parameters. Either a required parameter is missing, or both of TLE's mutually exclusive parameters were given.

The model follows the code as written. Points a reader may not expect:

- Several modules exit in check mode before any URL is composed: EONET, NEOW and APOD. They report the bare seed result, not the URL.
- A DONKI notification without a string `messageBody` makes `write(None)` raise. The record is not skipped. The file was already truncated and keeps the records written before it.
- When the APOD picture download fails, the code formats `nasaresp.status_code` on a dict. That raises, so the run crashes instead of failing, and nothing is written either way.
- The EONET `rstrip("&")` also removes trailing `&` characters of the last parameter's own value. `NasaEonetEvents.LastValueKept` names the inputs where that cannot happen.
- `nasa_mars_weather` and `nasa_mars_rover_photos` never look at the status code. `nasa_mars_weather` writes the response text whatever the status, provided the body decodes as JSON; otherwise the run raises before the write.
- GeneLab appends on every run, and a malformed study list leaves a partial append behind.
- GeneLab's non-200 branch calls `fail_json` without the required `msg`. That call itself raises, so the run crashes with no result, and nothing is written.
- Only DONKI treats a 200 with an empty (falsy) payload as a no-change success.
- Only EONET and NEOW write once. DONKI, APOD, Earth and mars_weather truncate, and GeneLab appends.
- A failed EONET or NEOW lookup reports the seed result, without the status. Earth and APOD report no status either.

## Model

| member | source | states |
|---|---|---|
| Text.RStrip | library/nasa_donki.py:177 | the result is a prefix of the input, does not end in the stripped character, and everything removed was that character |
| Text.RStripIgnoresTrailing | library/nasa_genelab.py:128 | any number of extra trailing characters makes no difference to `rstrip` |
| Text.ConcatAppend | library/nasa_eonet_events.py:183 | `"".join` of two lists one after the other is the join of the first followed by the join of the second |
| Text.ConcatIsJoin | library/nasa_eonet_events.py:183 | `"".join(parts)` is `sep.join(parts)` with the empty separator |
| Text.RStripOne | library/nasa_eonet_events.py:183 | one trailing `&` after text that does not end in `&` is exactly what `rstrip("&")` removes |
| Text.IntToString | library/nasa_genelab.py:122 | the f-string rendering of an int is not empty and holds only digits and a minus sign |
| Text.NatRoundTrip | library/nasa_genelab.py:122 | a non-negative int renders as digits that parse back to it |
| Text.IntRoundTrip | library/nasa_tle.py:115 | any int rendered by an f-string parses back to the same int |
| Urls.QueryRoundTrip | library/nasa_donki.py:158 | a query joined from pairs whose keys hold no `&`/`=` and whose values hold no `&` parses back to exactly those pairs, in order |
| Urls.UrlRoundTrip | plugins/modules/nasa_neow.py:160 | a URL `base + query` splits back into the base and the pairs of its query |
| Values.Truthy | library/nasa_donki.py:181 | a value is falsy exactly when it is `None`, `False`, `0`, `''`, `[]` or `{}` |
| Values.Index | plugins/modules/nasa_apod.py:138-140 | `d[k]` succeeds exactly on a dict that holds the key, and then gives a value stored under that key |
| Values.Get | plugins/modules/nasa_apod.py:132-134 | `d.get(k)` fails exactly on a non-dict, agrees with `d[k]` when the key is there, and is `None` when it is not |
| Values.GetValue | library/nasa_genelab.py:159 | `d.get(v)` with a value key raises on a non-dict or an unhashable (list or dict) key, agrees with lookup for a string key, and gives `None` for any other key |
| Values.Iterate | library/nasa_donki.py:192 | a `for` loop can run over lists, dicts (their keys) and strings (their characters) and over nothing else; a list yields exactly its items, a dict its keys in order and a string its characters in order; and the loop has a pass iff the value is truthy |
| Values.BoolToString | plugins/modules/nasa_apod.py:118 | a bool renders as `True` exactly when it is true, and as `False` otherwise |
| Values.OptToString | library/nasa_donki.py:158 | an unset optional string renders as `None`, a set one as itself |
| Values.Format | library/nasa_genelab.py:158-160 | an f-string renders `None` as `None`, a bool as `True`/`False`, an int as its canonical decimal digits, which parse back to it, a string as itself, and lists and dicts through `repr` |
| Ansible.BinaryRoundTrip | plugins/modules/nasa_apod.py:147-148 | bytes written with `wb` read back unchanged |
| Ansible.Then | library/nasa_donki.py:193-194 | two writes in sequence finish iff both do, and the first one's text is kept as a prefix |
| Ansible.ThenAssociative | library/nasa_genelab.py:157-160 | nesting of sequenced write steps does not matter |
| Ansible.EachComplete | library/nasa_donki.py:192-194 | a write loop runs to its end iff every pass does |
| Ansible.EachMember | library/nasa_genelab.py:157 | every pass finishing, counted by position or by element, is the same condition |
| Ansible.EachAppend | library/nasa_genelab.py:157-160 | a loop over `xs + ys` is the loop over `xs` followed, if it finished, by the loop over `ys` |
| Ansible.EachWrites | library/nasa_donki.py:192-194 | when each pass finishes with a known text, the loop finishes having written those texts in order |
| Ansible.EachStopped | library/nasa_donki.py:192-193 | once a pass has raised, later elements add nothing to the file |
| Ansible.Host.Get | library/nasa_tle.py:129 | one GET: the answer is the network's for that URL, and the URL is appended to the request log |
| Ansible.Host.Open | library/nasa_genelab.py:155 | `open(path, "a")` keeps existing contents, `open(path, "w")` empties the file, and either way the file exists |
| Ansible.Host.Write | library/nasa_donki.py:193-194 | a write adds its text at the end of the open file and changes no other file |
| NasaEonetEvents.Emitted | library/nasa_eonet_events.py:179-181 | exactly the parameters that are set, other than `savepath`, are emitted |
| NasaEonetEvents.EmittedOne | library/nasa_eonet_events.py:179-181 | one parameter gives exactly one `name=value` pair when it is set and not `savepath`, and none otherwise |
| NasaEonetEvents.EmittedAppend | library/nasa_eonet_events.py:179-181 | the pairs of a list of parameters are those of its first part followed by those of the rest, so the order of parameters is kept |
| NasaEonetEvents.ConcatFragments | library/nasa_eonet_events.py:177-183 | the joined `name=value&` fragments are the `&`-joined query followed by one `&`, or empty when nothing was emitted |
| NasaEonetEvents.QueryString | library/nasa_eonet_events.py:183 | the query is a prefix of the joined fragments, never ends in `&`, and is empty exactly when no filter is given |
| NasaEonetEvents.QueryNonEmpty | library/nasa_eonet_events.py:183 | with a filter given, `rstrip("&")` leaves at least the pair's `=` |
| NasaEonetEvents.Url | library/nasa_eonet_events.py:183-185 | the URL starts with the EONET base, is exactly the base when no filter is given, and never ends in `&` |
| NasaEonetEvents.QueryEndsClean | library/nasa_eonet_events.py:183 | the joined query does not end in `&` when the last value does not |
| NasaEonetEvents.QueryIsJoin | library/nasa_eonet_events.py:183-185 | after `rstrip` the query is exactly the `&`-joined emitted pairs, and it is empty with no filters |
| NasaEonetEvents.BuildQuery | library/nasa_eonet_events.py:177-183 | the loop builds the query string, which never ends in `&` and is the join of the emitted pairs |
| NasaEonetEvents.UrlDecodes | library/nasa_eonet_events.py:177-185 | the URL is the EONET base followed by a query that parses back to the set filters, in parameter order |
| NasaEonetEvents.FileName | library/nasa_eonet_events.py:204-212 | the name is `eonet-`, then the start date if given, then `to<end>.yml` or, without an end date, today's date with no extension; the length and the position of each piece are fixed |
| NasaEonetEvents.BuildFileName | library/nasa_eonet_events.py:204-212 | the `savename +=` steps build exactly that name |
| NasaEonetEvents.WriteOnce | library/nasa_eonet_events.py:215-219 | an existing file is left alone; otherwise the YAML is written, and the result says which happened |
| NasaEonetEvents.RunModule | library/nasa_eonet_events.py:169-231 | check mode ends with the seed result, no request and no write; otherwise exactly one GET to the composed URL; a non-200 fails with no write; undecodable JSON raises; a 200 writes the YAML at savepath + name only if nothing is there and reports status, savepath, file name and dates |
| NasaEonetEvents.RunTwice | library/nasa_eonet_events.py:215-219 | after a successful run, an identical second run writes nothing and reports changed = false with the same result |
| NasaDonki.Url | library/nasa_donki.py:153-158 | the URL carries `api_key`, `type`, `startDate`, `endDate` in this order, with an unset date rendered as `None` |
| NasaDonki.UrlDecodes | library/nasa_donki.py:153-158 | with the defaults `DEMO_KEY` and `all`, the URL parses back to those four pairs |
| NasaDonki.SaveLocation | library/nasa_donki.py:177-179 | the path ends in `/<name>.txt`, and before that is a prefix of `dest` that does not end in `/` and from which only `/` characters were removed |
| NasaDonki.SaveLocationIgnoresSlashes | library/nasa_donki.py:177 | trailing slashes on `dest` do not change the path |
| NasaDonki.Entry | library/nasa_donki.py:193-194 | one pass writes the body and the delimiter iff the entry has a string `messageBody`, and writes nothing otherwise |
| NasaDonki.Output | library/nasa_donki.py:191-194 | the write block finishes exactly when the JSON can be iterated and every entry has a string body, and then the file holds every record in order |
| NasaDonki.EntriesText | library/nasa_donki.py:191-194 | when every entry has a body, the file is every body followed by the delimiter, in order |
| NasaDonki.EntriesStopAt | library/nasa_donki.py:192-193 | at the first entry without a body the run raises, and the file keeps the records before it |
| NasaDonki.ThirdWithoutBody | library/nasa_donki.py:191-194 | three notifications, the last without a body: two records are written, then the run raises |
| NasaDonki.WriteEntryAt | library/nasa_donki.py:193-194 | one pass of the loop extends the file by that entry's record, or raises with the file unchanged |
| NasaDonki.WriteEntries | library/nasa_donki.py:192-194 | the loop appends the rendered entries to the open file and finishes iff every entry has a body |
| NasaDonki.WriteMessages | library/nasa_donki.py:191-194 | the file is truncated and then holds the rendered entries; a payload that cannot be iterated leaves it empty |
| NasaDonki.RunModule | library/nasa_donki.py:119-203 | check mode reports the URL with status 0 and no request or write; otherwise one GET; a non-200 raises (the `fail_json` call has no `msg`) with no write; a 200 with falsy JSON exits unchanged; otherwise the file is rewritten and the run reports the JSON, the path and changed = true, or raises part-way |
| NasaNeow.Url | plugins/modules/nasa_neow.py:160 | the URL is the feed base followed by `start_date`, `end_date`, `api_key` in this order |
| NasaNeow.UrlDecodes | plugins/modules/nasa_neow.py:160 | the URL parses back to the base and those three pairs |
| NasaNeow.FileName | plugins/modules/nasa_neow.py:187 | the name is `neow-`, the start date, `to`, the end date, `.yml`, at known positions |
| NasaNeow.Target | plugins/modules/nasa_neow.py:177 | the path is savepath followed directly by the file name, with no separator |
| NasaNeow.RunModule | plugins/modules/nasa_neow.py:110-193 | missing dates are rejected; check mode ends with the seed result and no request; a non-200 fails with no write; a 200 writes the YAML only if the target is absent, and changed says whether it did |
| NasaNeow.RunTwice | plugins/modules/nasa_neow.py:177-181 | after a successful run, an identical second run writes nothing and reports changed = false |
| NasaGenelab.Url | library/nasa_genelab.py:122 | the URL is the files base, the study ids verbatim, then `?page=<p>&size=<s>` |
| NasaGenelab.UrlDecodes | library/nasa_genelab.py:119-122 | the ids, the page and the size can be read back from the URL |
| NasaGenelab.FileToCreate | library/nasa_genelab.py:127-131 | the path ends in `/<name>`, and before that is a prefix of `path` that does not end in `/` and from which only `/` characters were removed |
| NasaGenelab.FileToCreateIgnoresSlashes | library/nasa_genelab.py:128 | trailing slashes on `path` do not change the file |
| NasaGenelab.FileLine | library/nasa_genelab.py:160 | a study file's line is written iff the entry is a dict, and is then the root followed by the rendered `remote_url` and a newline; otherwise nothing is written |
| NasaGenelab.FilesRendered | library/nasa_genelab.py:159-160 | the inner loop finishes iff every study file is a dict, and then it has written one line per file, in order |
| NasaGenelab.StudyFiles | library/nasa_genelab.py:159-160 | a study's inner loop finishes iff its `study_files` can be iterated and holds only dicts, and then writes those files' lines |
| NasaGenelab.Study | library/nasa_genelab.py:157-160 | a study's pass finishes under the same condition, and then writes the study's line followed by its files' lines |
| NasaGenelab.StudiesRendered | library/nasa_genelab.py:157-160 | when every study's pass finishes, the outer loop writes the studies' texts in iteration order |
| NasaGenelab.OutputComplete | library/nasa_genelab.py:155-160 | the append block finishes iff the JSON has iterable studies, each with iterable study files that are all dicts |
| NasaGenelab.OutputText | library/nasa_genelab.py:155-160 | for every response of that shape, the appended text is each study's line and then its files' lines, study after study |
| NasaGenelab.MissingRemoteUrlLines | library/nasa_genelab.py:160 | for any URL `u`: two study files, the first with `remote_url` `u` and the second without one, give the lines `<root><u>` and `<root>None` |
| NasaGenelab.MissingRemoteUrlStudy | library/nasa_genelab.py:157-160 | for any study id and `u`: a study holding those two files gives its id's line followed by those two lines |
| NasaGenelab.MissingRemoteUrl | library/nasa_genelab.py:155-160 | for any study id and `u`: the whole appended text for a response holding only that study |
| NasaGenelab.WriteFileLines | library/nasa_genelab.py:159-160 | the inner loop appends the file lines and finishes iff every entry is a dict |
| NasaGenelab.WriteStudy | library/nasa_genelab.py:158-160 | one study's pass appends its text and finishes iff that study is well formed |
| NasaGenelab.WriteStudyAt | library/nasa_genelab.py:157-160 | one pass of the outer loop extends the file by that study's text, and once it raises the later studies add nothing |
| NasaGenelab.WriteStudies | library/nasa_genelab.py:157-160 | the outer loop appends every study's text in order and finishes iff all studies are well formed |
| NasaGenelab.AppendOutput | library/nasa_genelab.py:155-160 | what the file held is kept as a prefix, and the rendered text follows it |
| NasaGenelab.RunModule | library/nasa_genelab.py:119-166 | ids are required; check mode reports the URL and the file with status 0; a non-200 raises (the `fail_json` call has no `msg`) with no write; a 200 appends the text and exits with changed = true, or raises part-way |
| NasaGenelab.RunTwice | library/nasa_genelab.py:155 | two successful identical runs append the same text twice after the prior contents |
| NasaApod.Url | plugins/modules/nasa_apod.py:117-120 | the URL is the APOD base with `hd` and `api_key`, plus `date` exactly when a non-empty date was given |
| NasaApod.UrlDecodes | plugins/modules/nasa_apod.py:117-120 | the query parses back to `hd`, the key, and the date exactly when given |
| NasaApod.ImageUrl | plugins/modules/nasa_apod.py:137-140 | the picture URL is `hdurl` when hd is set and `url` otherwise, and exists exactly when that field is a string in a dict |
| NasaApod.RunModule | plugins/modules/nasa_apod.py:113-155 | check mode ends with the seed result; a non-200 metadata response fails before the second GET; otherwise the picture is fetched from the chosen field; a failed download writes nothing; a good one writes its bytes unchanged to dest and reports the metadata, `url` and `hdurl` |
| NasaTle.Select | library/nasa_tle.py:112-115 | a non-empty name wins, else a non-zero number, else the listing |
| NasaTle.TleUrl | library/nasa_tle.py:110-115 | every URL starts with the API base, and is the bare base exactly for the listing |
| NasaTle.UrlRoundTrip | library/nasa_tle.py:110-115 | each of the three kinds of request has its own URL, which reads back as that request |
| NasaTle.ZeroIsListing | library/nasa_tle.py:114 | catalogue number 0 is taken as no number and gives the bare base URL |
| NasaTle.RunModule | library/nasa_tle.py:103-151 | both parameters are rejected before any request; check mode reports the URL with status 0; otherwise one GET; a non-200 fails carrying the status; the decoded JSON is reported; changed is never true and no file changes |
| NasaMarsWeather.Url | library/nasa_mars_weather.py:136 | the URL is the InSight base with `api_key`, `feedtype`, `ver` in this order |
| NasaMarsWeather.UrlDecodes | library/nasa_mars_weather.py:136 | the query parses back to the key, the feed type and the version |
| NasaMarsWeather.SaveLocation | library/nasa_mars_weather.py:132 | the save location is `file_loc`, `/`, `name`, with nothing stripped and no extension |
| NasaMarsWeather.RunModule | library/nasa_mars_weather.py:132-164 | the name is required; check mode reports the location and URL with status 0; otherwise one GET; whatever the status, provided the body decodes as JSON, the raw text replaces `<savelocation>.txt` (otherwise the run raises before the write) and the run reports the status, the JSON and changed = true |
| NasaEarth.Url | library/nasa_earth.py:100 | the URL carries `lon`, `lat`, the fixed date `2017-01-01` and `api_key`, in this order |
| NasaEarth.UrlDecodes | library/nasa_earth.py:100 | the query parses back to both coordinates, the fixed date and the key |
| NasaEarth.PictureUrl | library/nasa_earth.py:120 | the picture is fetched from the `url` field, which must be a string in a dict |
| NasaEarth.RunModule | library/nasa_earth.py:100-132 | lon and lat are required; check mode reports the URL; a non-200 first response fails before the second GET; a non-200 picture fails with no write; a good one writes its bytes to dest and reports changed = true with `urlearth` left empty |
| NasaMarsRoverPhotos.Url | library/nasa_mars_rover_photos.py:99 | the rover name sits in the path, followed by `/photos?sol=<sol>&api_key=<key>` |
| NasaMarsRoverPhotos.UrlDecodes | library/nasa_mars_rover_photos.py:99 | the rover, the sol and the key can be read back from the URL |
| NasaMarsRoverPhotos.RunModule | library/nasa_mars_rover_photos.py:96-117 | the rover is required; its name and the URL are reported even in check mode; one GET whatever the status; the decoded JSON is reported; nothing is written and changed is always false |

## Left out

- The transport is not modelled: headers such as TLE's `User-Agent`, redirects and `r.history`. The network is an oracle from URL to status, decoded JSON, text and bytes.
- `yaml.dump` and Python's `repr` of lists and dicts are passed in as functions, because they are foreign library code.
- `os.getcwd()` and `datetime.today()` are passed in as values, because they are environment reads.
- JSON decoding is part of the oracle: `json` is `None` when `response.json()` would raise.
- Ansible's argument handling is modelled only as required, default and mutual exclusion. Type coercion, `choices` (EONET `status`) and an explicit `null` for a defaulted parameter are not modelled; a defaulted parameter is either given or takes its default.
- JSON numbers are integers only. Floats are not modelled because they are floating point.
- NasaEonetEvents.Params: the query takes the parameters in declaration order. Ansible visits first the parameters written in the playbook, in the order written there, and then the defaulted ones, so the real order can differ. `Emitted`, `QueryString`, `QueryIsJoin` and `BuildQuery` are stated for any order of parameters; only `Url` and `UrlDecodes` fix declaration order.
- NasaEarth.Url: `lon` and `lat` are the text their float values print as. Float formatting is not modelled.
- Messages passed to `fail_json` are not modelled; only the outcome and the result dict are. A call without `msg` raises and is modelled as a crash.
- Filesystem errors are not modelled: permissions, missing directories and full disks. Neither is the race between `os.path.isfile` and `open`.
- Text files hold characters and binary files one character per byte. Encodings are not modelled.
- A decoded JSON object is taken to hold each key once. Where a key repeats, the model reads its first occurrence, while Python's decoder keeps the last.
- NasaApod.ImageUrl and NasaEarth.PictureUrl: a picture field that is not a string is treated as a crash. `requests` would turn it into a URL with no scheme and raise; that conversion is not modelled.
- A URL that `requests` would refuse is not modelled, for example one with spaces. Such a URL is sent to the oracle like any other.

=== FILE: ansible.dfy ===
/** What every connector runs against: the Ansible exits, the environment
    reads, the network seen as an oracle, and the host's file system. */
module Ansible {

  import opened Wrappers
  import opened Text
  import opened Values

  type byte = x: int | 0 <= x < 256

  /** How a `run_module` invocation ends:
      `Exit`     — `module.exit_json(**result)`;
      `Fail`     — `module.fail_json(msg=..., **result)` (the message is not modelled);
      `Crash`    — an uncaught Python exception (Ansible reports a module failure, no result);
      `Rejected` — AnsibleModule's argument check refused the parameters
                   (a required one is missing, or two mutually exclusive ones were both given). */
  datatype Outcome<R> = Exit(result: R) | Fail(result: R) | Crash | Rejected

  /** What `requests.get(url)` hands back: the status code, the decoded JSON body
      (`None` when `response.json()` raises), `response.text` and `response.content`. */
  datatype Response = Response(status: int, json: Option<Json>, text: string, content: seq<byte>)

  /** Reads of the environment and foreign library calls, passed in:
      `os.getcwd()`, `datetime.today().strftime('%Y-%m-%d')`, `yaml.dump`, and
      Python's `repr` of lists and dicts. */
  datatype Env = Env(cwd: string, today: string, yamlDump: Json -> string, repr: Json -> string)

  /** Bytes as they sit in a file of the model, one character per byte. */
  function BinaryText(data: seq<byte>): (t: string)
    ensures |t| == |data|
  {
    seq(|data|, i requires 0 <= i < |data| => data[i] as char)
  }

  /** Reads a file of the model back as bytes. */
  function TextBytes(t: string): (data: seq<byte>)
    requires forall i :: 0 <= i < |t| ==> t[i] as int < 256
  {
    seq(|t|, i requires 0 <= i < |t| => t[i] as int)
  }

  /** Binary content written to a file reads back unchanged. */
  lemma BinaryRoundTrip(data: seq<byte>)
    ensures forall i :: 0 <= i < |BinaryText(data)| ==> BinaryText(data)[i] as int < 256
    ensures TextBytes(BinaryText(data)) == data
  {
  }

  /** Text produced by a loop of writes that may raise part-way: what reached
      the file, and whether the loop ran to its end. */
  datatype Written = Written(text: string, complete: bool)

  /** Running `a`, then `b` unless `a` raised. */
  function Then(a: Written, b: Written): (w: Written)
    ensures w.complete <==> a.complete && b.complete
    ensures a.text <= w.text
  {
    if a.complete then Written(a.text + b.text, b.complete) else a
  }

  lemma ThenAssociative(a: Written, b: Written, c: Written)
    ensures Then(Then(a, b), c) == Then(a, Then(b, c))
  {
    if a.complete && b.complete {
      assert a.text + b.text + c.text == a.text + (b.text + c.text);
    }
  }

  /** A loop running the step `f` on each element in order, stopping at the
      first step that raises: it finishes exactly when every step does. */
  function Each<T>(xs: seq<T>, f: T -> Written): Written
  {
    if xs == [] then Written("", true) else Then(Each(xs[..|xs| - 1], f), f(xs[|xs| - 1]))
  }

  /** The loop runs to its end exactly when every step does. */
  lemma {:induction false} EachComplete<T>(xs: seq<T>, f: T -> Written)
    ensures Each(xs, f).complete <==> forall i :: 0 <= i < |xs| ==> f(xs[i]).complete
  {
    if xs != [] {
      var init := xs[..|xs| - 1];
      EachComplete(init, f);
      assert Each(xs, f) == Then(Each(init, f), f(xs[|xs| - 1]));
      assert (forall i :: 0 <= i < |init| ==> f(init[i]).complete) <==> (forall i :: 0 <= i < |xs| - 1 ==> f(xs[i]).complete) by {
        forall i | 0 <= i < |init|
          ensures f(init[i]) == f(xs[i])
        {
          assert init[i] == xs[i];
        }
      }
    }
  }

  /** When each pass finishes with a known text, the loop finishes having
      written those texts in order. */
  lemma {:induction false} EachWrites<T>(xs: seq<T>, f: T -> Written, ts: seq<string>)
    requires |ts| == |xs|
    requires forall i :: 0 <= i < |xs| ==> f(xs[i]) == Written(ts[i], true)
    ensures Each(xs, f) == Written(Concat(ts), true)
  {
    if xs != [] {
      EachWrites(xs[..|xs| - 1], f, ts[..|ts| - 1]);
    }
  }

  /** Every step completes, counted by position or by element alike. */
  lemma EachMember<T>(xs: seq<T>, f: T -> Written)
    ensures (forall i :: 0 <= i < |xs| ==> f(xs[i]).complete) <==> (forall x :: x in xs ==> f(x).complete)
  {
    if forall i :: 0 <= i < |xs| ==> f(xs[i]).complete {
      forall x | x in xs
        ensures f(x).complete
      {
        var i :| 0 <= i < |xs| && xs[i] == x;
      }
    }
  }

  /** One more pass of the loop. */
  lemma EachStep<T>(xs: seq<T>, f: T -> Written, i: nat)
    requires i < |xs|
    ensures Each(xs[..i + 1], f) == Then(Each(xs[..i], f), f(xs[i]))
  {
    assert xs[..i + 1][..i] == xs[..i];
  }

  lemma {:induction false} EachAppend<T>(xs: seq<T>, ys: seq<T>, f: T -> Written)
    ensures Each(xs + ys, f) == Then(Each(xs, f), Each(ys, f))
  {
    if ys == [] {
      assert xs + ys == xs;
    } else {
      var init := ys[..|ys| - 1];
      assert (xs + ys)[..|xs + ys| - 1] == xs + init;
      assert (xs + ys)[|xs + ys| - 1] == ys[|ys| - 1];
      EachAppend(xs, init, f);
      ThenAssociative(Each(xs, f), Each(init, f), f(ys[|ys| - 1]));
    }
  }

  /** Once a step has raised, the later elements add nothing to the file. */
  lemma {:induction false} EachStopped<T>(xs: seq<T>, f: T -> Written, k: nat)
    requires k < |xs| && !Each(xs[..k + 1], f).complete
    ensures Each(xs, f) == Each(xs[..k + 1], f)
  {
    var rest := xs[k + 1..];
    assert xs == xs[..k + 1] + rest;
    EachAppend(xs[..k + 1], rest, f);
  }

  /** Writing a file twice leaves only the second contents. */
  lemma UpdateTwice<K, V>(m: map<K, V>, k: K, a: V, b: V)
    ensures m[k := a][k := b] == m[k := b]
  {
  }

  /** The host a connector runs on: its files, the GET requests made so far
      (one URL per request, in order), and the network that answers them. */
  class Host {
    var files: map<string, string>
    var log: seq<string>
    const net: string -> Response

    constructor (files: map<string, string>, net: string -> Response)
      ensures this.files == files && log == [] && this.net == net
    {
      this.files := files;
      this.log := [];
      this.net := net;
    }

    /** `os.path.isfile(path)`. */
    predicate IsFile(path: string)
      reads this
    {
      path in files
    }

    /** `requests.get(url)`: one round trip, recorded in the log. */
    method Get(url: string) returns (r: Response)
      modifies this`log
      ensures log == old(log) + [url]
      ensures r == net(url)
    {
      r := net(url);
      log := log + [url];
    }

    /** `open(path, "w")` (truncate) or `open(path, "a")` (append): either way the file exists afterwards. */
    method Open(path: string, append: bool)
      modifies this`files
      ensures files == old(files)[path := if append && path in old(files) then old(files)[path] else ""]
    {
      files := files[path := if append && path in files then files[path] else ""];
    }

    /** `f.write(s)` on a file opened before. */
    method Write(path: string, s: string)
      requires path in files
      modifies this`files
      ensures files == old(files)[path := old(files)[path] + s]
    {
      files := files[path := files[path] + s];
    }
  }
}

=== FILE: apod.dfy ===
/** `nasa_apod`: looks up the Astronomy Picture of the Day, then downloads the
    picture (high resolution or not) and saves its bytes. */
module NasaApod {

  import opened Wrappers
  import opened Values
  import opened Urls
  import opened Ansible

  const APOD := "https://api.nasa.gov/planetary/apod?"

  /** The module's parameters as given (all optional). */
  datatype Args = Args(date: Option<string>, hd: Option<bool>, apikey: Option<string>, dest: Option<string>)

  /** The result dict: the metadata JSON and what its `url` and `hdurl` hold. */
  datatype Result = Result(changed: bool, apodjson: Json, apodurl: Json, apodhdurl: Json)

  const SEED := Result(false, Str(""), Str(""), Str(""))

  /** `date` is sent only when it is given and not empty. */
  predicate HasDate(date: Option<string>)
  {
    date.Some? && date.value != ""
  }

  /** The query pairs: `hd` as Python prints a bool, the key, then the date if any. */
  function Params(hd: bool, apikey: string, date: Option<string>): seq<Pair>
  {
    [("hd", BoolToString(hd)), ("api_key", apikey)] + (if HasDate(date) then [("date", date.value)] else [])
  }

  /** The metadata URL. */
  function Url(hd: bool, apikey: string, date: Option<string>): (u: string)
    ensures u == APOD + Query(Params(hd, apikey, date))
  {
    assert "hd" + "=" == "hd=";
    assert "&" + "api_key" + "=" == "&api_key=";
    if HasDate(date) then
      Url3(APOD, "hd", BoolToString(hd), "api_key", apikey, "date", date.value);
      assert "&" + "date" + "=" == "&date=";
      assert Params(hd, apikey, date) == [("hd", BoolToString(hd)), ("api_key", apikey), ("date", date.value)];
      APOD + "hd=" + BoolToString(hd) + "&api_key=" + apikey + "&date=" + date.value
    else
      Url2(APOD, "hd", BoolToString(hd), "api_key", apikey);
      assert Params(hd, apikey, date) == [("hd", BoolToString(hd)), ("api_key", apikey)];
      APOD + "hd=" + BoolToString(hd) + "&api_key=" + apikey
  }

  /** The query carries `hd` and the key, and the date exactly when one was given. */
  lemma UrlDecodes(hd: bool, apikey: string, date: Option<string>)
    requires '&' !in apikey && (date.Some? ==> '&' !in date.value)
    ensures var u := Url(hd, apikey, date);
      && u[..|APOD|] == APOD
      && var ps := ParseQuery(u[|APOD|..]);
      && |ps| == (if HasDate(date) then 3 else 2)
      && ps[0] == ("hd", BoolToString(hd)) && ps[1] == ("api_key", apikey)
      && (HasDate(date) ==> ps[2] == ("date", date.value))
  {
    var ps := Params(hd, apikey, date);
    assert '&' !in BoolToString(hd);
    assert Plain(ps) by {
      forall i | 0 <= i < |ps|
        ensures '&' !in ps[i].0 && '=' !in ps[i].0 && '&' !in ps[i].1
      {
        if i == 2 {
          assert ps[i] == ("date", date.value);
        }
      }
    }
    UrlRoundTrip(APOD, ps);
  }

  /** The picture to download: `hdurl` or `url` of the metadata. `None` stands
      for the `KeyError` of a missing field, and for a field that is not a URL. */
  function ImageUrl(meta: Json, hd: bool): (u: Option<string>)
    ensures u.Some? <==> Index(meta, if hd then "hdurl" else "url").Some? && Index(meta, if hd then "hdurl" else "url").value.Str?
    ensures u.Some? ==> meta.Obj? && Index(meta, if hd then "hdurl" else "url") == Some(Str(u.value))
  {
    match Index(meta, if hd then "hdurl" else "url")
    case Some(Str(url)) => Some(url)
    case _ => None
  }

  /** `run_module`. */
  method RunModule(host: Host, args: Args, checkMode: bool) returns (out: Outcome<Result>)
    modifies host
    ensures checkMode ==> out == Exit(SEED) && host.files == old(host.files) && host.log == old(host.log)
    ensures !checkMode ==>
      var hd, dest := args.hd.GetOr(true), args.dest.GetOr("/tmp/example.png");
      var url := Url(hd, args.apikey.GetOr("DEMO_KEY"), args.date);
      var resp := host.net(url);
      // a failed metadata lookup: one request, no write
      && (resp.status != 200 ==> out == Fail(SEED) && host.log == old(host.log) + [url] && host.files == old(host.files))
      // metadata that is not a dict, or has no usable picture URL: the run raises, no write
      && (resp.status == 200 && (resp.json.None? || !resp.json.value.Obj? || ImageUrl(resp.json.value, hd).None?) ==>
            out == Crash && host.log == old(host.log) + [url] && host.files == old(host.files))
      // otherwise the picture is requested
      && (resp.status == 200 && resp.json.Some? && resp.json.value.Obj? && ImageUrl(resp.json.value, hd).Some? ==>
            var meta := resp.json.value;
            var image := host.net(ImageUrl(meta, hd).value);
            && host.log == old(host.log) + [url, ImageUrl(meta, hd).value]
            // a failed download raises while reporting it: no write
            && (image.status != 200 ==> out == Crash && host.files == old(host.files))
            // the bytes are written unchanged
            && (image.status == 200 ==>
                  && host.files == old(host.files)[dest := BinaryText(image.content)]
                  && out == Exit(Result(true, meta, Get(meta, "url").value, Get(meta, "hdurl").value))))
  {
    var result := SEED;
    if checkMode {
      return Exit(result);
    }
    var hd := args.hd.GetOr(true);
    var apikey := args.apikey.GetOr("DEMO_KEY");
    var nasaresp := host.Get(Url(hd, apikey, args.date));
    if nasaresp.status != 200 {
      return Fail(result);
    }
    if nasaresp.json.None? {
      return Crash;
    }
    var meta := nasaresp.json.value;
    result := result.(apodjson := meta);
    var apodurl := Get(meta, "url");
    if apodurl.None? {
      return Crash;
    }
    result := result.(apodurl := apodurl.value);
    var apodhdurl := Get(meta, "hdurl");
    result := result.(apodhdurl := apodhdurl.value);
    var imageUrl := ImageUrl(meta, hd);
    if imageUrl.None? {
      return Crash;
    }
    var apodimage := host.Get(imageUrl.value);
    if apodimage.status != 200 {
      return Crash;
    }
    var dest := args.dest.GetOr("/tmp/example.png");
    host.Open(dest, false);
    host.Write(dest, BinaryText(apodimage.content));
    assert "" + BinaryText(apodimage.content) == BinaryText(apodimage.content);
    result := result.(changed := true);
    return Exit(result);
  }
}

=== FILE: donki.dfy ===
/** `nasa_donki`: looks up DONKI space-weather notifications and saves the
    `messageBody` of every notification, each followed by a delimiter line. */
module NasaDonki {

  import opened Wrappers
  import opened Text
  import opened Values
  import opened Urls
  import opened Ansible

  const NOTIFICATIONS := "https://api.nasa.gov/DONKI/notifications?"
  const DELIMITER := "\n------\n"

  /** The module's parameters as given; `dataType` is the `datatype` parameter. */
  datatype Args = Args(
    name: Option<string>, dest: Option<string>, apikey: Option<string>,
    startdate: Option<string>, enddate: Option<string>, dataType: Option<string>)

  datatype Result = Result(apiLookedup: string, changed: bool, statusCode: int, filemade: string, donkijson: Json)

  const SEED := Result("", false, 0, "", Str(""))

  /** The URL for a key, a notification type and the two dates. Unset dates are
      rendered by the f-string as `None`. */
  function Url(apikey: string, kind: string, sd: Option<string>, ed: Option<string>): (u: string)
    ensures u == NOTIFICATIONS + Query([("api_key", apikey), ("type", kind),
                                        ("startDate", OptToString(sd)), ("endDate", OptToString(ed))])
  {
    Url4(NOTIFICATIONS, "api_key", apikey, "type", kind, "startDate", OptToString(sd), "endDate", OptToString(ed));
    assert "api_key" + "=" == "api_key=";
    assert "&" + "type" + "=" == "&type=";
    assert "&" + "startDate" + "=" == "&startDate=";
    assert "&" + "endDate" + "=" == "&endDate=";
    NOTIFICATIONS + "api_key=" + apikey + "&type=" + kind
      + "&startDate=" + OptToString(sd) + "&endDate=" + OptToString(ed)
  }

  /** The URL a run looks up, with the defaults `DEMO_KEY` and `all`. */
  function RequestUrl(args: Args): string
  {
    Url(args.apikey.GetOr("DEMO_KEY"), args.dataType.GetOr("all"), args.startdate, args.enddate)
  }

  /** The query always has the four keys, in this order; an unset date is the text `None`. */
  lemma UrlDecodes(args: Args)
    requires Plain([("api_key", args.apikey.GetOr("DEMO_KEY")), ("type", args.dataType.GetOr("all")),
                    ("startDate", OptToString(args.startdate)), ("endDate", OptToString(args.enddate))])
    ensures RequestUrl(args)[..|NOTIFICATIONS|] == NOTIFICATIONS
    ensures ParseQuery(RequestUrl(args)[|NOTIFICATIONS|..])
         == [("api_key", args.apikey.GetOr("DEMO_KEY")), ("type", args.dataType.GetOr("all")),
             ("startDate", OptToString(args.startdate)), ("endDate", OptToString(args.enddate))]
  {
    UrlRoundTrip(NOTIFICATIONS, [("api_key", args.apikey.GetOr("DEMO_KEY")), ("type", args.dataType.GetOr("all")),
                                 ("startDate", OptToString(args.startdate)), ("endDate", OptToString(args.enddate))]);
  }

  /** The file written: `dest` without its trailing slashes, `/`, `name`, `.txt`. */
  function SaveLocation(dest: string, name: string): (path: string)
    ensures |path| >= |name| + 5 && path[|path| - |name| - 5..] == "/" + name + ".txt"
    ensures var dir := path[..|path| - |name| - 5];
      && dir <= dest && (dir == [] || dir[|dir| - 1] != '/')
      && forall i :: |dir| <= i < |dest| ==> dest[i] == '/'
  {
    var fl := RStrip(dest, '/');
    var path := fl + "/" + name + ".txt";
    assert path[..|path| - |name| - 5] == fl;
    path
  }

  /** A trailing slash on `dest`, or several, makes no difference. */
  lemma SaveLocationIgnoresSlashes(dest: string, name: string, k: nat)
    ensures SaveLocation(dest + seq(k, _ => '/'), name) == SaveLocation(dest, name)
  {
    RStripIgnoresTrailing(dest, '/', k);
  }

  /** The file written by a run, with the defaults `/tmp` and `results`. */
  function Target(args: Args): string
  {
    SaveLocation(args.dest.GetOr("/tmp"), args.name.GetOr("results"))
  }

  /** `entry.get("messageBody")` is a string. */
  predicate HasBody(entry: Json)
  {
    var body := Get(entry, "messageBody");
    body.Some? && body.value.Str?
  }

  /** One pass of the loop: the body then the delimiter. `entry.get` raises
      when the entry is not a dict, and `write` raises on anything but a
      string (a missing body is `None`), before anything is written. */
  function Entry(entry: Json): (w: Written)
    ensures w.complete <==> HasBody(entry)
    ensures w.complete ==> w.text == Get(entry, "messageBody").value.s + DELIMITER
    ensures !w.complete ==> w.text == ""
  {
    match Get(entry, "messageBody")
    case Some(Str(body)) => Written(body + DELIMITER, true)
    case _ => Written("", false)
  }

  /** What the `with open(savloc, "w")` block leaves in the file, and whether it ran
      to its end: `for entry in nj` raises at once unless `nj` can be iterated. */
  function Output(nj: Json): (w: Written)
    ensures w.complete <==> Iterate(nj).Some? && forall i :: 0 <= i < |Iterate(nj).value| ==> HasBody(Iterate(nj).value[i])
    ensures w.complete ==> w.text == Concat(Records(Iterate(nj).value))
  {
    match Iterate(nj)
    case Some(es) =>
      EachComplete(es, Entry);
      if forall i :: 0 <= i < |es| ==> HasBody(es[i]) then EntriesText(es); Each(es, Entry) else Each(es, Entry)
    case None => Written("", false)
  }

  /** The records of a list in which every entry has a body. */
  function Records(es: seq<Json>): (rs: seq<string>)
    requires forall i :: 0 <= i < |es| ==> HasBody(es[i])
    ensures |rs| == |es|
  {
    seq(|es|, i requires 0 <= i < |es| && HasBody(es[i]) => Get(es[i], "messageBody").value.s + DELIMITER)
  }

  /** When it finishes, the file is every body followed by the delimiter, in order. */
  lemma {:induction false} EntriesText(es: seq<Json>)
    requires forall i :: 0 <= i < |es| ==> HasBody(es[i])
    ensures Each(es, Entry) == Written(Concat(Records(es)), true)
  {
    if es != [] {
      var init := es[..|es| - 1];
      EntriesText(init);
      assert Records(es)[..|init|] == Records(init);
    }
  }

  /** When the entry at `k` is the first without a body, the run raises there
      and the file keeps the records before it. */
  lemma {:induction false} EntriesStopAt(es: seq<Json>, k: nat)
    requires k < |es| && !HasBody(es[k])
    requires forall i :: 0 <= i < k ==> HasBody(es[i])
    ensures Each(es, Entry) == Written(Concat(Records(es[..k])), false)
  {
    var before := es[..k];
    EntriesText(before);
    EachStopped(es, Entry, k);
    EachStep(es, Entry, k);
  }

  /** Three notifications, the last without `messageBody`: the first two are
      written and the third raises. */
  lemma ThirdWithoutBody()
    ensures Each([Obj([("messageBody", Str("A"))]), Obj([("messageBody", Str("B"))]), Obj([("other", Num(1))])], Entry)
         == Written("A\n------\nB\n------\n", false)
  {
    var es := [Obj([("messageBody", Str("A"))]), Obj([("messageBody", Str("B"))]), Obj([("other", Num(1))])];
    assert es[..2][..1] == [es[0]];
    assert Each(es[..2][..1], Entry) == Written("A\n------\n", true);
  }

  /** One pass of the `for entry in nj` loop: the body, then the delimiter. */
  method WriteEntryAt(host: Host, savloc: string, es: seq<Json>, i: nat, ghost start: string) returns (ok: bool)
    requires i < |es| && savloc in host.files
    requires host.files[savloc] == start + Each(es[..i], Entry).text
    requires Each(es[..i], Entry).complete
    modifies host`files
    ensures host.files == old(host.files)[savloc := start + Each(es[..i + 1], Entry).text]
    ensures ok == Each(es[..i + 1], Entry).complete
    ensures !ok ==> Each(es, Entry) == Each(es[..i + 1], Entry)
  {
    ghost var before := Each(es[..i], Entry).text;
    EachStep(es, Entry, i);
    var body := Get(es[i], "messageBody");
    if body.None? || !body.value.Str? {
      EachStopped(es, Entry, i);
      assert before + "" == before;
      assert host.files == old(host.files)[savloc := start + before];
      return false;
    }
    host.Write(savloc, body.value.s);
    host.Write(savloc, DELIMITER);
    UpdateTwice(old(host.files), savloc, start + before + body.value.s, start + before + body.value.s + DELIMITER);
    AppendAssoc(start + before, body.value.s, DELIMITER);
    AppendAssoc(start, before, body.value.s + DELIMITER);
    return true;
  }

  /** The `for entry in nj` loop, writing to a file already open. */
  method WriteEntries(host: Host, savloc: string, es: seq<Json>) returns (ok: bool)
    requires savloc in host.files
    modifies host`files
    ensures host.files == old(host.files)[savloc := old(host.files)[savloc] + Each(es, Entry).text]
    ensures ok == Each(es, Entry).complete
  {
    ghost var start := host.files[savloc];
    assert es[..0] == [] && start + "" == start;
    assert host.files == old(host.files)[savloc := start];
    for i := 0 to |es|
      invariant host.files == old(host.files)[savloc := start + Each(es[..i], Entry).text]
      invariant Each(es[..i], Entry).complete
    {
      UpdateTwice(old(host.files), savloc, start + Each(es[..i], Entry).text, start + Each(es[..i + 1], Entry).text);
      ok := WriteEntryAt(host, savloc, es, i, start);
      if !ok {
        return false;
      }
    }
    assert es[..|es|] == es;
    return true;
  }

  /** The `with open(savloc, "w") as nasaf: for entry in nj: ...` block. */
  method WriteMessages(host: Host, savloc: string, nj: Json) returns (ok: bool)
    modifies host`files
    ensures host.files == old(host.files)[savloc := Output(nj).text]
    ensures ok == Output(nj).complete
  {
    host.Open(savloc, false);
    var entries := Iterate(nj);
    if entries.None? {
      return false;
    }
    ok := WriteEntries(host, savloc, entries.value);
    assert "" + Output(nj).text == Output(nj).text;
  }

  /** `run_module`. */
  method RunModule(host: Host, args: Args, checkMode: bool, env: Env) returns (out: Outcome<Result>)
    modifies host
    // check mode still reports the URL; status stays 0, no request, no write
    ensures checkMode ==>
      out == Exit(SEED.(apiLookedup := RequestUrl(args))) && host.files == old(host.files) && host.log == old(host.log)
    ensures !checkMode ==> host.log == old(host.log) + [RequestUrl(args)]
    ensures !checkMode && host.net(RequestUrl(args)).status != 200 ==>
      && out == Fail(SEED.(apiLookedup := RequestUrl(args), statusCode := host.net(RequestUrl(args)).status))
      && host.files == old(host.files)
    ensures !checkMode && host.net(RequestUrl(args)).status == 200 && host.net(RequestUrl(args)).json.None? ==>
      out == Crash && host.files == old(host.files)
    // a 200 whose JSON is falsy: no file, no change
    ensures !checkMode && host.net(RequestUrl(args)).status == 200 && host.net(RequestUrl(args)).json.Some?
            && !Truthy(host.net(RequestUrl(args)).json.value) ==>
      && out == Exit(SEED.(apiLookedup := RequestUrl(args), statusCode := 200))
      && host.files == old(host.files)
    // otherwise the file is (re)written from the entries
    ensures !checkMode && host.net(RequestUrl(args)).status == 200 && host.net(RequestUrl(args)).json.Some?
            && Truthy(host.net(RequestUrl(args)).json.value) ==>
      var nj := host.net(RequestUrl(args)).json.value;
      && host.files == old(host.files)[Target(args) := Output(nj).text]
      && out == if Output(nj).complete then Exit(Result(RequestUrl(args), true, 200, Target(args), nj)) else Crash
  {
    var result := SEED;
    var apikey := args.apikey.GetOr("DEMO_KEY");
    var kind := args.dataType.GetOr("all");
    var api := Url(apikey, kind, args.startdate, args.enddate);
    result := result.(apiLookedup := api);
    if checkMode {
      return Exit(result);
    }
    var nasaresponse := host.Get(api);
    result := result.(statusCode := nasaresponse.status);
    if nasaresponse.status != 200 {
      return Fail(result);
    }
    var savloc := SaveLocation(args.dest.GetOr("/tmp"), args.name.GetOr("results"));
    if nasaresponse.json.None? {
      return Crash;
    }
    var nj := nasaresponse.json.value;
    if !Truthy(nj) {
      return Exit(result);
    }
    result := result.(donkijson := nj);
    var ok := WriteMessages(host, savloc, nj);
    if !ok {
      return Crash;
    }
    result := result.(filemade := savloc, changed := true);
    return Exit(result);
  }
}

=== FILE: earth.dfy ===
/** `nasa_earth`: asks the Earth imagery API for the picture of a spot, then
    downloads it from the URL the API hands back and saves its bytes. */
module NasaEarth {

  import opened Wrappers
  import opened Values
  import opened Urls
  import opened Ansible

  const IMAGERY := "https://api.nasa.gov/planetary/earth/imagery/?"
  const DATE := "2017-01-01"

  /** The module's parameters as given; `lon` and `lat` are required and are
      carried as the text the f-string prints for them. */
  datatype Args = Args(apikey: Option<string>, lon: Option<string>, lat: Option<string>, dest: Option<string>)

  /** The result dict; `urlearth` is never filled in. */
  datatype Result = Result(changed: bool, url: string, urlearth: string)

  const SEED := Result(false, "", "")

  /** The imagery URL: longitude, latitude, the fixed date, the key. */
  function Url(lon: string, lat: string, apikey: string): (u: string)
    ensures u == IMAGERY + Query([("lon", lon), ("lat", lat), ("date", DATE), ("api_key", apikey)])
  {
    Url4(IMAGERY, "lon", lon, "lat", lat, "date", DATE, "api_key", apikey);
    assert "lon" + "=" == "lon=";
    assert "&" + "lat" + "=" == "&lat=";
    assert "&" + "date" + "=" == "&date=";
    assert "&" + "api_key" + "=" == "&api_key=";
    IMAGERY + "lon=" + lon + "&lat=" + lat + "&date=" + DATE + "&api_key=" + apikey
  }

  /** The query gives back both coordinates and the key; the date is always the same. */
  lemma UrlDecodes(lon: string, lat: string, apikey: string)
    requires '&' !in lon && '&' !in lat && '&' !in apikey
    ensures var u := Url(lon, lat, apikey);
      && u[..|IMAGERY|] == IMAGERY
      && ParseQuery(u[|IMAGERY|..]) == [("lon", lon), ("lat", lat), ("date", DATE), ("api_key", apikey)]
  {
    var ps := [("lon", lon), ("lat", lat), ("date", DATE), ("api_key", apikey)];
    assert Plain(ps) by {
      forall i | 0 <= i < |ps|
        ensures '&' !in ps[i].0 && '=' !in ps[i].0 && '&' !in ps[i].1
      {
        if i == 2 {
          assert ps[i] == ("date", DATE);
        }
      }
    }
    UrlRoundTrip(IMAGERY, ps);
  }

  /** `nasaresp["url"]` as a URL to fetch. `None` stands for the `KeyError` or
      `TypeError` of a missing field or a body that is not a dict, and for a
      field that is not a string (which `requests` cannot fetch). */
  function PictureUrl(meta: Json): (u: Option<string>)
    ensures u.Some? <==> meta.Obj? && Index(meta, "url").Some? && Index(meta, "url").value.Str?
    ensures u.Some? ==> Index(meta, "url") == Some(Str(u.value))
  {
    match Index(meta, "url")
    case Some(Str(url)) => Some(url)
    case _ => None
  }

  /** `run_module`. */
  method RunModule(host: Host, args: Args, checkMode: bool) returns (out: Outcome<Result>)
    modifies host
    ensures args.lon.None? || args.lat.None? ==>
      out == Rejected && host.files == old(host.files) && host.log == old(host.log)
    ensures args.lon.Some? && args.lat.Some? ==>
      var url := Url(args.lon.value, args.lat.value, args.apikey.GetOr("DEMO_KEY"));
      var resp := host.net(url);
      var reported := SEED.(url := url);
      // check mode reports the URL, makes no request and writes nothing
      && (checkMode ==> out == Exit(reported) && host.files == old(host.files) && host.log == old(host.log))
      // a failed lookup: one request, no write
      && (!checkMode && resp.status != 200 ==>
            out == Fail(reported) && host.log == old(host.log) + [url] && host.files == old(host.files))
      // a body without a usable `url`: the run raises, no write
      && (!checkMode && resp.status == 200 && (resp.json.None? || PictureUrl(resp.json.value).None?) ==>
            out == Crash && host.log == old(host.log) + [url] && host.files == old(host.files))
      // otherwise the picture is requested from that URL
      && (!checkMode && resp.status == 200 && resp.json.Some? && PictureUrl(resp.json.value).Some? ==>
            var picture := PictureUrl(resp.json.value).value;
            var image := host.net(picture);
            && host.log == old(host.log) + [url, picture]
            && (image.status != 200 ==> out == Fail(reported) && host.files == old(host.files))
            // the bytes replace whatever was at `dest`
            && (image.status == 200 ==>
                  && host.files == old(host.files)[args.dest.GetOr("/tmp/example.png") := BinaryText(image.content)]
                  && out == Exit(reported.(changed := true))))
  {
    if args.lon.None? || args.lat.None? {
      return Rejected;
    }
    var result := SEED;
    var nasaurl := Url(args.lon.value, args.lat.value, args.apikey.GetOr("DEMO_KEY"));
    result := result.(url := nasaurl);
    if checkMode {
      return Exit(result);
    }
    var nasaresp := host.Get(nasaurl);
    if nasaresp.status != 200 {
      return Fail(result);
    }
    if nasaresp.json.None? {
      return Crash;
    }
    var picture := PictureUrl(nasaresp.json.value);
    if picture.None? {
      return Crash;
    }
    var googleearth := host.Get(picture.value);
    if googleearth.status != 200 {
      return Fail(result);
    }
    var dest := args.dest.GetOr("/tmp/example.png");
    host.Open(dest, false);
    host.Write(dest, BinaryText(googleearth.content));
    assert "" + BinaryText(googleearth.content) == BinaryText(googleearth.content);
    result := result.(changed := true);
    return Exit(result);
  }
}

=== FILE: eonet.dfy ===
/** `nasa_eonet_events`: queries the EONET v3 event feed with whichever filters
    were given, converts the JSON to YAML and saves it once per file name. */
module NasaEonetEvents {

  import opened Wrappers
  import opened Text
  import opened Values
  import opened Urls
  import opened Ansible

  const NASAEONET := "https://eonet.sci.gsfc.nasa.gov/api/v3/events?"

  /** The module's parameters as given (all optional). */
  datatype Args = Args(
    source: Option<string>, status: Option<string>, limit: Option<string>, days: Option<string>,
    start: Option<string>, end: Option<string>, magID: Option<string>, magMin: Option<string>,
    magMax: Option<string>, bbox: Option<string>, savepath: Option<string>)

  /** The result dict. `statusCode` is `None` while it still holds its seed `''`;
      `startDate`/`endDate` hold `Some("")` as seed and the parameter (possibly
      `None`) once reported. */
  datatype Result = Result(
    changed: bool, originalNasaJson: Json, statusCode: Option<int>, fileLoc: string,
    yamlOutputFile: string, startDate: Option<string>, endDate: Option<string>)

  const SEED := Result(false, Str(""), None, "", "", Some(""), Some(""))

  type Param = (string, Option<string>)

  /** `savepath` defaults to the working directory. */
  function SavePath(args: Args, cwd: string): string
  {
    args.savepath.GetOr(cwd)
  }

  /** `module.params`: every declared parameter, in declaration order. */
  function Params(args: Args, cwd: string): seq<Param>
  {
    [("source", args.source), ("status", args.status), ("limit", args.limit), ("days", args.days),
     ("start", args.start), ("end", args.end), ("magID", args.magID), ("magMin", args.magMin),
     ("magMax", args.magMax), ("bbox", args.bbox), ("savepath", Some(SavePath(args, cwd)))]
  }

  /** The parameters that go into the query: those with a value, other than `savepath`. */
  function Emitted(ps: seq<Param>): (e: seq<Pair>)
    ensures forall i :: 0 <= i < |e| ==> e[i].0 != "savepath" && (e[i].0, Some(e[i].1)) in ps
    ensures forall i :: 0 <= i < |ps| && ps[i].1.Some? && ps[i].0 != "savepath" ==> (ps[i].0, ps[i].1.value) in e
    ensures |e| <= |ps|
  {
    if ps == [] then []
    else
      var init, last := ps[..|ps| - 1], ps[|ps| - 1];
      var e0 := Emitted(init);
      assert forall i :: 0 <= i < |init| ==> init[i] == ps[i];
      assert forall p :: p in init ==> p in ps;
      e0 + (if last.1.Some? && last.0 != "savepath" then [(last.0, last.1.value)] else [])
  }

  /** A single parameter gives one pair when it is set and is not `savepath`. */
  lemma EmittedOne(p: Param)
    ensures Emitted([p]) == if p.1.Some? && p.0 != "savepath" then [(p.0, p.1.value)] else []
  {
    assert [p][..0] == [];
  }

  /** The pairs keep the parameters' order: emitting a concatenation is
      concatenating what each part emits. */
  lemma {:induction false} EmittedAppend(a: seq<Param>, b: seq<Param>)
    ensures Emitted(a + b) == Emitted(a) + Emitted(b)
  {
    if b == [] {
      assert a + b == a;
    } else {
      var init, last := b[..|b| - 1], b[|b| - 1];
      assert (a + b)[..|a + b| - 1] == a + init;
      assert (a + b)[|a + b| - 1] == last;
      EmittedAppend(a, init);
    }
  }

  /** The list the loop builds: one `name=value&` per emitted parameter. */
  function Fragments(ps: seq<Param>): (fs: seq<string>)
  {
    var e := Emitted(ps);
    seq(|e|, i requires 0 <= i < |e| => e[i].0 + "=" + e[i].1 + "&")
  }

  /** `"".join(queryparams).rstrip("&")`: empty exactly when no filter is
      given, and never ending in `&`. */
  function QueryString(ps: seq<Param>): (q: string)
    ensures q <= Concat(Fragments(ps))
    ensures q == [] || q[|q| - 1] != '&'
    ensures q == [] <==> Emitted(ps) == []
  {
    ConcatFragments(ps);
    if Emitted(ps) != [] then QueryNonEmpty(ps); RStrip(Concat(Fragments(ps)), '&')
    else RStrip(Concat(Fragments(ps)), '&')
  }

  /** The URL requested: the base alone when no filter is given. */
  function Url(args: Args, cwd: string): (u: string)
    ensures |u| >= |NASAEONET| && u[..|NASAEONET|] == NASAEONET
    ensures u == NASAEONET <==> Emitted(Params(args, cwd)) == []
    ensures u[|u| - 1] != '&'
  {
    NASAEONET + QueryString(Params(args, cwd))
  }

  /** The value of the last emitted parameter does not itself end in `&`
      (`rstrip("&")` would eat such an ending too). */
  predicate LastValueKept(ps: seq<Param>)
  {
    var e := Emitted(ps);
    e == [] || e[|e| - 1].1 == [] || e[|e| - 1].1[|e[|e| - 1].1| - 1] != '&'
  }

  lemma {:induction false} FragmentsStep(ps: seq<Param>)
    requires ps != []
    ensures var init, last := ps[..|ps| - 1], ps[|ps| - 1];
      Fragments(ps) == Fragments(init) + (if last.1.Some? && last.0 != "savepath" then [last.0 + "=" + last.1.value + "&"] else [])
  {
  }

  lemma {:induction false} JoinSuffix(parts: seq<string>, sep: string)
    requires |parts| >= 1
    ensures var j := Join(parts, sep); var last := parts[|parts| - 1];
      |j| >= |last| && j[|j| - |last|..] == last
  {
  }

  lemma {:induction false} ConcatFragments(ps: seq<Param>)
    ensures Concat(Fragments(ps)) == if Emitted(ps) == [] then "" else Query(Emitted(ps)) + "&"
  {
    if ps != [] {
      var init, last := ps[..|ps| - 1], ps[|ps| - 1];
      ConcatFragments(init);
      if last.1.Some? && last.0 != "savepath" {
        ConcatFragmentsEmitted(ps);
      } else {
        FragmentsStep(ps);
        assert Emitted(ps) == Emitted(init);
      }
    }
  }

  /** The step of `ConcatFragments` where the last parameter is emitted. */
  lemma {:induction false} ConcatFragmentsEmitted(ps: seq<Param>)
    requires ps != [] && ps[|ps| - 1].1.Some? && ps[|ps| - 1].0 != "savepath"
    requires var init := ps[..|ps| - 1];
      Concat(Fragments(init)) == if Emitted(init) == [] then "" else Query(Emitted(init)) + "&"
    ensures Concat(Fragments(ps)) == Query(Emitted(ps)) + "&"
  {
    var init, last := ps[..|ps| - 1], ps[|ps| - 1];
    FragmentsStep(ps);
    var e0, k, v := Emitted(init), last.0, last.1.value;
    assert Emitted(ps) == e0 + [(k, v)];
    var fs := Fragments(ps);
    assert fs[..|fs| - 1] == Fragments(init);
    assert Concat(fs) == Concat(Fragments(init)) + (k + "=" + v + "&");
    QuerySnoc(e0, k, v);
    if e0 != [] {
      FragmentTail(Query(e0), k, v);
    }
  }

  lemma FragmentTail(q: string, k: string, v: string)
    ensures q + "&" + (k + "=" + v + "&") == q + "&" + k + "=" + v + "&"
  {
  }

  /** The query joins exactly the emitted `name=value` pairs with `&`, and
      with no filter at all it is empty (the URL is the bare base). */
  lemma {:induction false} QueryIsJoin(ps: seq<Param>)
    requires LastValueKept(ps)
    ensures QueryString(ps) == Query(Emitted(ps))
    ensures Emitted(ps) == [] ==> QueryString(ps) == ""
  {
    ConcatFragments(ps);
    if Emitted(ps) != [] {
      QueryEndsClean(ps);
      RStripOne(Query(Emitted(ps)), '&');
    }
  }

  /** With the last value kept, the joined query does not end in `&`. */
  lemma {:induction false} QueryEndsClean(ps: seq<Param>)
    requires LastValueKept(ps) && Emitted(ps) != []
    ensures var q := Query(Emitted(ps)); q != [] && q[|q| - 1] != '&'
  {
    var e := Emitted(ps);
    var q := Query(e);
    var parts := Pairs(e);
    var k, v := e[|e| - 1].0, e[|e| - 1].1;
    var last := parts[|parts| - 1];
    assert last == k + "=" + v;
    JoinSuffix(parts, "&");
    PairEnd(k, v);
    assert q[|q| - 1] == q[|q| - |last|..][|last| - 1];
  }

  /** With a filter given, the `=` of its pair survives the `rstrip`. */
  lemma {:induction false} QueryNonEmpty(ps: seq<Param>)
    requires Emitted(ps) != []
    ensures RStrip(Concat(Fragments(ps)), '&') != []
  {
    var e := Emitted(ps);
    var q := Query(e);
    var parts := Pairs(e);
    var k, v := e[|e| - 1].0, e[|e| - 1].1;
    var last := parts[|parts| - 1];
    assert last == k + "=" + v;
    assert last[|k|] == '=';
    JoinSuffix(parts, "&");
    ConcatFragments(ps);
    var p := |q| - |last| + |k|;
    assert q[p] == q[|q| - |last|..][|k|];
    assert (q + "&")[p] == '=';
  }

  /** The last character of `k=v`: the value's, or `=` when the value is empty. */
  lemma PairEnd(k: string, v: string)
    ensures var t := k + "=" + v; t[|t| - 1] == if v == [] then '=' else v[|v| - 1]
  {
  }

  /** The `for mp in module.params` loop and the `rstrip` after it. */
  method BuildQuery(params: seq<Param>) returns (qp: string)
    ensures qp == QueryString(params)
    ensures qp == [] || qp[|qp| - 1] != '&'
    ensures LastValueKept(params) ==> qp == Query(Emitted(params))
  {
    var queryparams: seq<string> := [];
    for i := 0 to |params|
      invariant queryparams == Fragments(params[..i])
    {
      var (mp, value) := params[i];
      FragmentsStep(params[..i + 1]);
      assert params[..i + 1][..i] == params[..i];
      if value.Some? && mp != "savepath" {
        queryparams := queryparams + [mp + "=" + value.value + "&"];
      }
    }
    assert params[..|params|] == params;
    qp := RStrip(Concat(queryparams), '&');
    if LastValueKept(params) {
      QueryIsJoin(params);
    }
  }

  /** The query of a run carries each given filter as `name=value`, in
      parameter order, and nothing for `savepath`. */
  lemma {:induction false} UrlDecodes(args: Args, cwd: string)
    requires LastValueKept(Params(args, cwd)) && Plain(Emitted(Params(args, cwd)))
    ensures Url(args, cwd)[..|NASAEONET|] == NASAEONET
    ensures ParseQuery(Url(args, cwd)[|NASAEONET|..]) == Emitted(Params(args, cwd))
  {
    QueryIsJoin(Params(args, cwd));
    UrlRoundTrip(NASAEONET, Emitted(Params(args, cwd)));
  }

  /** The saved file's name: `eonet-`, the start date if given, then either
      `to<end>.yml` or, without an end date, today's date and no extension. */
  function FileName(start: Option<string>, end: Option<string>, today: string): (name: string)
    ensures |name| >= 6 && name[..6] == "eonet-"
    ensures start.Some? ==> |name| >= 6 + |start.value| && name[6..6 + |start.value|] == start.value
    ensures end.Some? ==> |name| >= 4 && name[|name| - 4..] == ".yml"
    ensures end.Some? ==> |name| >= 6 + |end.value| + 4 && name[|name| - 4 - |end.value|..|name| - 4] == end.value
    ensures end.None? ==> |name| >= |today| && name[|name| - |today|..] == today
    // exactly: the prefix, the start date or nothing, then `to<end>.yml` or today
    ensures var n := 6 + |start.GetOr("")|;
      && |name| == n + (if end.Some? then 2 + |end.value| + 4 else |today|)
      && name[6..n] == start.GetOr("")
      && (end.Some? ==> name[n..n + 2] == "to" && name[n + 2..|name| - 4] == end.value && name[|name| - 4..] == ".yml")
      && (end.None? ==> name[n..] == today)
  {
    var prefix := "eonet-" + start.GetOr("");
    if end.Some? then prefix + "to" + end.value + ".yml" else prefix + today
  }

  /** Where the YAML goes: `savepath` and the file name with no separator between them. */
  function Target(args: Args, env: Env): string
  {
    SavePath(args, env.cwd) + FileName(args.start, args.end, env.today)
  }

  /** The `savename += ...` steps. */
  method BuildFileName(start: Option<string>, end: Option<string>, today: string) returns (savename: string)
    ensures savename == FileName(start, end, today)
  {
    savename := "eonet-";
    if start.Some? {
      savename := savename + start.value;
    }
    if end.Some? {
      savename := savename + "to" + end.value + ".yml";
    } else {
      savename := savename + today;
    }
  }

  /** The `if not os.path.isfile(...)` write: an existing file is left alone. */
  method WriteOnce(host: Host, path: string, text: string) returns (written: bool)
    modifies host`files
    ensures written == (path !in old(host.files))
    ensures host.files == if written then old(host.files)[path := text] else old(host.files)
  {
    written := !host.IsFile(path);
    if written {
      host.Open(path, false);
      host.Write(path, text);
      assert "" + text == text;
    }
  }

  /** `run_module`. */
  method RunModule(host: Host, args: Args, checkMode: bool, env: Env) returns (out: Outcome<Result>)
    modifies host
    // check mode: the seed result, no URL, no request, no write
    ensures checkMode ==> out == Exit(SEED) && host.files == old(host.files) && host.log == old(host.log)
    // otherwise exactly one GET, to the composed URL
    ensures !checkMode ==> host.log == old(host.log) + [Url(args, env.cwd)]
    ensures !checkMode && host.net(Url(args, env.cwd)).status != 200 ==>
      out == Fail(SEED) && host.files == old(host.files)
    ensures !checkMode && host.net(Url(args, env.cwd)).status == 200 && host.net(Url(args, env.cwd)).json.None? ==>
      out == Crash && host.files == old(host.files)
    // a 200 with JSON: the YAML is written only if nothing is at the target yet
    ensures !checkMode && host.net(Url(args, env.cwd)).status == 200 && host.net(Url(args, env.cwd)).json.Some? ==>
      var nasaJson := host.net(Url(args, env.cwd)).json.value;
      var target := Target(args, env);
      && host.files == (if target in old(host.files) then old(host.files)
                        else old(host.files)[target := env.yamlDump(nasaJson)])
      && out == Exit(Result(target !in old(host.files), nasaJson, Some(200), SavePath(args, env.cwd),
                            FileName(args.start, args.end, env.today), args.start, args.end))
  {
    var result := SEED;
    if checkMode {
      return Exit(result);
    }
    var params := Params(args, env.cwd);
    var qp := BuildQuery(params);
    var lookMeUp := NASAEONET + qp;
    assert lookMeUp == Url(args, env.cwd);
    var resp := host.Get(lookMeUp);
    if resp.status != 200 {
      return Fail(result);
    }
    if resp.json.None? {
      return Crash;
    }
    var nasaJson := resp.json.value;
    var nasaYaml := env.yamlDump(nasaJson);
    var sp := SavePath(args, env.cwd);
    var savename := BuildFileName(args.start, args.end, env.today);
    var written := WriteOnce(host, sp + savename, nasaYaml);
    if written {
      result := result.(changed := true);
    }
    result := result.(originalNasaJson := nasaJson, statusCode := Some(resp.status), fileLoc := sp,
                      yamlOutputFile := savename, startDate := args.start, endDate := args.end);
    return Exit(result);
  }

  /** Two runs with the same inputs: once the first has succeeded, the second
      writes nothing, reports `changed = false` and otherwise the same result. */
  method RunTwice(host: Host, args: Args, env: Env)
    returns (first: Outcome<Result>, second: Outcome<Result>, ghost filesAfterFirst: map<string, string>)
    modifies host
    ensures first.Exit? ==> second == Exit(first.result.(changed := false)) && host.files == filesAfterFirst
    ensures first.Exit? ==> Target(args, env) in host.files
  {
    first := RunModule(host, args, false, env);
    filesAfterFirst := host.files;
    second := RunModule(host, args, false, env);
  }
}

=== FILE: genelab.dfy ===
/** `nasa_genelab`: looks up the files of GeneLab studies and appends, for each
    study, its name and the full URL of each of its files to a text file. */
module NasaGenelab {

  import opened Wrappers
  import opened Text
  import opened Values
  import opened Urls
  import opened Ansible

  const FILES := "https://genelab-data.ndc.nasa.gov/genelab/data/glds/files/"
  const NASAROOT := "https://genelab-data.ndc.nasa.gov"

  /** The module's parameters as given; `gldsStudyIds` is required. */
  datatype Args = Args(
    name: Option<string>, path: Option<string>, gldsStudyIds: Option<string>,
    pageNumber: Option<int>, resultsPerPage: Option<int>)

  datatype Result = Result(changed: bool, apiLookedup: string, statusCode: int, filemade: string)

  const SEED := Result(false, "", 0, "")

  /** The URL: the study ids as a path segment, verbatim, then the page and
      its size as a query. */
  function Url(ids: string, page: int, size: int): (u: string)
    ensures u == FILES + ids + "/?" + Query([("page", IntToString(page)), ("size", IntToString(size))])
  {
    Url2(FILES + ids + "/?", "page", IntToString(page), "size", IntToString(size));
    assert "page" + "=" == "page=";
    assert "&" + "size" + "=" == "&size=";
    assert FILES + ids + "/?page=" == FILES + ids + "/?" + "page=";
    FILES + ids + "/?page=" + IntToString(page) + "&size=" + IntToString(size)
  }

  /** When the ids hold no `/`, the URL gives back the ids, the page and the
      page size. */
  lemma UrlDecodes(ids: string, page: int, size: int)
    requires '/' !in ids
    ensures var u := Url(ids, page, size);
      && u[..|FILES|] == FILES
      && Cut(u[|FILES|..], '/').0 == ids
      && var rest := Cut(u[|FILES|..], '/').1;
      && |rest| >= 1 && rest[0] == '?'
      && var ps := ParseQuery(rest[1..]);
      && |ps| == 2 && ps[0].0 == "page" && ps[1].0 == "size"
      && ParseInt(ps[0].1) == Some(page) && ParseInt(ps[1].1) == Some(size)
  {
    var ps := [("page", IntToString(page)), ("size", IntToString(size))];
    var q := Query(ps);
    var u := Url(ids, page, size);
    assert u[|FILES|..] == ids + ['/'] + ("?" + q);
    CutJoined(ids, "?" + q, '/');
    assert ("?" + q)[1..] == q;
    forall i | 0 <= i < |ps|
      ensures '&' !in ps[i].1
    {
      assert !IsDigit('&');
    }
    QueryRoundTrip(ps);
    IntRoundTrip(page);
    IntRoundTrip(size);
  }

  /** `filemade`: `path` without its trailing slashes, `/`, then `name`. */
  function FileToCreate(path: string, name: string): (f: string)
    ensures |f| > |name| && f[|f| - |name| - 1..] == "/" + name
    ensures var dir := f[..|f| - |name| - 1];
      && dir <= path && (dir == [] || dir[|dir| - 1] != '/')
      && forall i :: |dir| <= i < |path| ==> path[i] == '/'
  {
    var fp := RStrip(path, '/');
    var f := fp + "/" + name;
    assert f[..|f| - |name| - 1] == fp;
    f
  }

  /** Trailing slashes on `path`, however many, make no difference. */
  lemma FileToCreateIgnoresSlashes(path: string, name: string, k: nat)
    ensures FileToCreate(path + seq(k, _ => '/'), name) == FileToCreate(path, name)
  {
    RStripIgnoresTrailing(path, '/', k);
  }

  /** One line per study file: the root and its `remote_url`, whatever that
      renders as (a missing one is `None`). `studydata.get` raises, before
      anything is written, when the entry is not a dict. */
  function FileLine(studydata: Json, repr: Json -> string): (w: Written)
    ensures w.complete <==> studydata.Obj?
    ensures !w.complete ==> w.text == ""
    ensures w.complete ==> w.text == NASAROOT + Format(Get(studydata, "remote_url").value, repr) + "\n"
  {
    match Get(studydata, "remote_url")
    case Some(url) => Written(NASAROOT + Format(url, repr) + "\n", true)
    case None => Written("", false)
  }

  function LineStep(repr: Json -> string): Json -> Written
  {
    studydata => FileLine(studydata, repr)
  }

  /** The study files of `study` as the inner loop sees them, when it can. */
  function StudyFileList(studies: Json, study: Json): Option<seq<Json>>
  {
    match GetValue(studies, study)
    case None => None
    case Some(entry) =>
      match Get(entry, "study_files")
      case None => None
      case Some(files) => Iterate(files)
  }

  /** The lines a study's files should produce: one per file, in order, each
      the root followed by the file's `remote_url` (`None` when missing). */
  function FileLines(fds: seq<Json>, repr: Json -> string): (ls: seq<string>)
    ensures |ls| == |fds|
  {
    seq(|fds|, i requires 0 <= i < |fds| => NASAROOT + Format(Get(fds[i], "remote_url").GetOr(Null), repr) + "\n")
  }

  /** The text a study should produce: its own line, then its files' lines. */
  function StudyText(studies: Json, study: Json, repr: Json -> string): string
  {
    Format(study, repr) + "\n" + Concat(FileLines(StudyFileList(studies, study).GetOr([]), repr))
  }

  /** The inner loop over a list of study files finishes exactly when every
      entry is a dict, and then it has written `FileLines`. */
  lemma {:induction false} FilesRendered(fds: seq<Json>, repr: Json -> string)
    ensures Each(fds, LineStep(repr)).complete <==> forall fd :: fd in fds ==> fd.Obj?
    ensures Each(fds, LineStep(repr)).complete ==> Each(fds, LineStep(repr)).text == Concat(FileLines(fds, repr))
  {
    var f := LineStep(repr);
    EachComplete(fds, f);
    EachMember(fds, f);
    if forall fd :: fd in fds ==> fd.Obj? {
      var ls := FileLines(fds, repr);
      forall i | 0 <= i < |fds|
        ensures f(fds[i]) == Written(ls[i], true)
      {
        assert fds[i] in fds;
      }
      EachWrites(fds, f, ls);
    }
  }

  /** The inner loop for one study: `studies.get(study).get("study_files")`
      must be something iterable, whose entries must all be dicts. */
  function StudyFiles(studies: Json, study: Json, repr: Json -> string): (w: Written)
    ensures w.complete <==>
      StudyFileList(studies, study).Some? && forall fd :: fd in StudyFileList(studies, study).value ==> fd.Obj?
    ensures w.complete ==> w.text == Concat(FileLines(StudyFileList(studies, study).value, repr))
  {
    match GetValue(studies, study)
    case None => Written("", false)
    case Some(entry) =>
      match Get(entry, "study_files")
      case None => Written("", false)
      case Some(files) =>
        match Iterate(files)
        case None => Written("", false)
        case Some(fds) => FilesRendered(fds, repr); Each(fds, LineStep(repr))
  }

  /** One pass of the outer loop: the study's line, then its files. It
      finishes under the same condition as its inner loop. */
  function Study(studies: Json, study: Json, repr: Json -> string): (w: Written)
    ensures w.complete <==>
      StudyFileList(studies, study).Some? && forall fd :: fd in StudyFileList(studies, study).value ==> fd.Obj?
    ensures w.complete ==> w.text == StudyText(studies, study, repr)
  {
    Then(Written(Format(study, repr) + "\n", true), StudyFiles(studies, study, repr))
  }

  function StudyStep(studies: Json, repr: Json -> string): Json -> Written
  {
    study => Study(studies, study, repr)
  }

  /** What the `with open(filetocreate, "a")` block adds to the file, and
      whether it ran to its end. */
  function Output(rjson: Json, repr: Json -> string): Written
  {
    match Get(rjson, "studies")
    case None => Written("", false)
    case Some(studies) =>
      match Iterate(studies)
      case None => Written("", false)
      case Some(ks) => Each(ks, StudyStep(studies, repr))
  }

  /** The shape the loops need: `studies` iterable; every study found in it
      with an iterable `study_files` whose entries are all dicts. */
  predicate Shaped(rjson: Json)
  {
    var studies := Get(rjson, "studies");
    && studies.Some? && Iterate(studies.value).Some?
    && forall study :: study in Iterate(studies.value).value ==>
         && StudyFileList(studies.value, study).Some?
         && forall fd :: fd in StudyFileList(studies.value, study).value ==> fd.Obj?
  }

  /** The append block runs to its end exactly when the JSON has that shape. */
  lemma {:induction false} OutputComplete(rjson: Json, repr: Json -> string)
    ensures Output(rjson, repr).complete <==> Shaped(rjson)
  {
    var studies := Get(rjson, "studies");
    if studies.Some? && Iterate(studies.value).Some? {
      var ks := Iterate(studies.value).value;
      EachComplete(ks, StudyStep(studies.value, repr));
      EachMember(ks, StudyStep(studies.value, repr));
    }
  }

  /** The texts studies should produce, in the order given. */
  function StudyTexts(studies: Json, ks: seq<Json>, repr: Json -> string): (ts: seq<string>)
    ensures |ts| == |ks|
  {
    seq(|ks|, i requires 0 <= i < |ks| => StudyText(studies, ks[i], repr))
  }

  /** When every study's pass finishes, the outer loop writes their texts in order. */
  lemma {:induction false} StudiesRendered(studies: Json, ks: seq<Json>, repr: Json -> string)
    requires forall k :: k in ks ==> Study(studies, k, repr).complete
    ensures Each(ks, StudyStep(studies, repr)) == Written(Concat(StudyTexts(studies, ks, repr)), true)
  {
    var f := StudyStep(studies, repr);
    var ts := StudyTexts(studies, ks, repr);
    forall i | 0 <= i < |ks|
      ensures f(ks[i]) == Written(ts[i], true)
    {
      assert ks[i] in ks;
    }
    EachWrites(ks, f, ts);
  }

  /** For a response of that shape, the block appends each study's text in
      the order the studies are iterated. */
  lemma OutputText(rjson: Json, repr: Json -> string)
    requires Shaped(rjson)
    ensures var studies := Get(rjson, "studies").value;
      Output(rjson, repr) == Written(Concat(StudyTexts(studies, Iterate(studies).value, repr)), true)
  {
    var studies := Get(rjson, "studies").value;
    StudiesRendered(studies, Iterate(studies).value, repr);
  }

  /** Two study files, the second without `remote_url`: its line reads `None`. */
  lemma MissingRemoteUrlLines(u: string, repr: Json -> string)
    ensures Each([Obj([("remote_url", Str(u))]), Obj([])], LineStep(repr))
         == Written((NASAROOT + u + "\n") + (NASAROOT + "None\n"), true)
  {
    var fds := [Obj([("remote_url", Str(u))]), Obj([])];
    var first, second := NASAROOT + u + "\n", NASAROOT + "None\n";
    assert "None" + "\n" == "None\n";
    AppendAssoc(NASAROOT, "None", "\n");
    assert LineStep(repr)(fds[0]) == Written(first, true);
    assert LineStep(repr)(fds[1]) == Written(second, true);
    EachWrites(fds, LineStep(repr), [first, second]);
    assert [first, second][..1] == [first] && [first][..0] == [];
    assert Concat([first]) == first by {
      assert "" + first == first;
    }
    assert Concat([first, second]) == first + second;
  }

  /** A study holding those two files: its line, then theirs. */
  lemma MissingRemoteUrlStudy(id: string, u: string, repr: Json -> string)
    ensures Study(Obj([(id, Obj([("study_files", Arr([Obj([("remote_url", Str(u))]), Obj([])]))]))]), Str(id), repr)
         == Written(id + "\n" + ((NASAROOT + u + "\n") + (NASAROOT + "None\n")), true)
  {
    var fds := [Obj([("remote_url", Str(u))]), Obj([])];
    MissingRemoteUrlLines(u, repr);
    var entry := Obj([("study_files", Arr(fds))]);
    var studies := Obj([(id, entry)]);
    assert GetValue(studies, Str(id)) == Some(entry);
    assert Get(entry, "study_files") == Some(Arr(fds));
    assert Iterate(Arr(fds)) == Some(fds);
    assert StudyFiles(studies, Str(id), repr) == Each(fds, LineStep(repr));
  }

  /** The whole file for a response holding just that study. */
  lemma MissingRemoteUrl(id: string, u: string, repr: Json -> string)
    ensures Output(Obj([("studies", Obj([(id, Obj([("study_files",
                     Arr([Obj([("remote_url", Str(u))]), Obj([])]))]))]))]), repr)
         == Written(id + "\n" + ((NASAROOT + u + "\n") + (NASAROOT + "None\n")), true)
  {
    var fds := [Obj([("remote_url", Str(u))]), Obj([])];
    var studies := Obj([(id, Obj([("study_files", Arr(fds))]))]);
    var text := id + "\n" + ((NASAROOT + u + "\n") + (NASAROOT + "None\n"));
    MissingRemoteUrlStudy(id, u, repr);
    var ks := [Str(id)];
    assert |Iterate(studies).value| == 1 && Iterate(studies).value[0] == Str(id);
    assert Iterate(studies).value == ks;
    EachWrites(ks, StudyStep(studies, repr), [text]);
    assert [text][..0] == [];
    assert "" + text == text;
    var rjson := Obj([("studies", studies)]);
    assert Get(rjson, "studies") == Some(studies);
    assert Output(rjson, repr) == Each(ks, StudyStep(studies, repr));
  }

  /** The inner loop, appending to a file already open. */
  method WriteFileLines(host: Host, path: string, fds: seq<Json>, repr: Json -> string) returns (ok: bool)
    requires path in host.files
    modifies host`files
    ensures host.files == old(host.files)[path := old(host.files)[path] + Each(fds, LineStep(repr)).text]
    ensures ok == Each(fds, LineStep(repr)).complete
  {
    ghost var start := host.files[path];
    assert fds[..0] == [] && start + "" == start;
    assert host.files == old(host.files)[path := start];
    for i := 0 to |fds|
      invariant host.files == old(host.files)[path := start + Each(fds[..i], LineStep(repr)).text]
      invariant Each(fds[..i], LineStep(repr)).complete
    {
      ghost var before := Each(fds[..i], LineStep(repr)).text;
      EachStep(fds, LineStep(repr), i);
      assert LineStep(repr)(fds[i]) == FileLine(fds[i], repr);
      var url := Get(fds[i], "remote_url");
      if url.None? {
        EachStopped(fds, LineStep(repr), i);
        assert before + "" == before;
        return false;
      }
      var line := NASAROOT + Format(url.value, repr) + "\n";
      assert Each(fds[..i + 1], LineStep(repr)).text == before + line;
      UpdateTwice(old(host.files), path, start + before, start + before + line);
      host.Write(path, line);
      AppendAssoc(start, before, line);
    }
    assert fds[..|fds|] == fds;
    return true;
  }

  /** One pass of the outer loop: the study's line, then its files. */
  method WriteStudy(host: Host, path: string, studies: Json, study: Json, repr: Json -> string) returns (ok: bool)
    requires path in host.files
    modifies host`files
    ensures host.files == old(host.files)[path := old(host.files)[path] + Study(studies, study, repr).text]
    ensures ok == Study(studies, study, repr).complete
  {
    ghost var start := host.files[path];
    var line := Format(study, repr) + "\n";
    host.Write(path, line);
    var entry := GetValue(studies, study);
    if entry.None? {
      assert line + "" == line;
      return false;
    }
    var files := Get(entry.value, "study_files");
    if files.None? {
      assert line + "" == line;
      return false;
    }
    var fds := Iterate(files.value);
    if fds.None? {
      assert line + "" == line;
      return false;
    }
    ok := WriteFileLines(host, path, fds.value, repr);
    AppendAssoc(start, line, Each(fds.value, LineStep(repr)).text);
  }

  /** Pass `i` of the outer loop, seen from the loop: the text so far grows
      by the study's text. */
  method WriteStudyAt(host: Host, path: string, studies: Json, ks: seq<Json>, i: nat, repr: Json -> string,
                      ghost start: string)
    returns (ok: bool)
    requires i < |ks| && path in host.files
    requires host.files[path] == start + Each(ks[..i], StudyStep(studies, repr)).text
    requires Each(ks[..i], StudyStep(studies, repr)).complete
    modifies host`files
    ensures host.files == old(host.files)[path := start + Each(ks[..i + 1], StudyStep(studies, repr)).text]
    ensures ok == Each(ks[..i + 1], StudyStep(studies, repr)).complete
    ensures !ok ==> Each(ks, StudyStep(studies, repr)) == Each(ks[..i + 1], StudyStep(studies, repr))
  {
    ghost var before := Each(ks[..i], StudyStep(studies, repr)).text;
    ghost var w := Study(studies, ks[i], repr);
    EachStep(ks, StudyStep(studies, repr), i);
    assert StudyStep(studies, repr)(ks[i]) == w;
    ok := WriteStudy(host, path, studies, ks[i], repr);
    AppendAssoc(start, before, w.text);
    assert Each(ks[..i + 1], StudyStep(studies, repr)) == Written(before + w.text, w.complete);
    if !ok {
      EachStopped(ks, StudyStep(studies, repr), i);
    }
  }

  /** The outer loop over the studies. */
  method WriteStudies(host: Host, path: string, studies: Json, ks: seq<Json>, repr: Json -> string) returns (ok: bool)
    requires path in host.files
    modifies host`files
    ensures host.files == old(host.files)[path := old(host.files)[path] + Each(ks, StudyStep(studies, repr)).text]
    ensures ok == Each(ks, StudyStep(studies, repr)).complete
  {
    ghost var start := host.files[path];
    assert ks[..0] == [] && start + "" == start;
    assert host.files == old(host.files)[path := start];
    for i := 0 to |ks|
      invariant host.files == old(host.files)[path := start + Each(ks[..i], StudyStep(studies, repr)).text]
      invariant Each(ks[..i], StudyStep(studies, repr)).complete
    {
      ghost var text := Each(ks[..i + 1], StudyStep(studies, repr)).text;
      UpdateTwice(old(host.files), path, start + Each(ks[..i], StudyStep(studies, repr)).text, start + text);
      ok := WriteStudyAt(host, path, studies, ks, i, repr, start);
      if !ok {
        return false;
      }
    }
    assert ks[..|ks|] == ks;
    return true;
  }

  /** The `with open(file_to_create, "a")` block: what the file held is kept and
      the output is appended after it. */
  method AppendOutput(host: Host, path: string, rjson: Json, repr: Json -> string) returns (ok: bool)
    modifies host`files
    ensures host.files == old(host.files)[path := (if path in old(host.files) then old(host.files)[path] else "")
                                                  + Output(rjson, repr).text]
    ensures ok == Output(rjson, repr).complete
  {
    host.Open(path, true);
    ghost var prior := host.files[path];
    assert prior + "" == prior;
    var studies := Get(rjson, "studies");
    if studies.None? {
      return false;
    }
    var ks := Iterate(studies.value);
    if ks.None? {
      return false;
    }
    UpdateTwice(old(host.files), path, prior, prior + Output(rjson, repr).text);
    ok := WriteStudies(host, path, studies.value, ks.value, repr);
  }

  /** The URL a run looks up, with page 0 and 25 per page by default. */
  function RequestUrl(args: Args): string
    requires args.gldsStudyIds.Some?
  {
    Url(args.gldsStudyIds.value, args.pageNumber.GetOr(0), args.resultsPerPage.GetOr(25))
  }

  /** The file a run appends to, `/tmp/gene-results.txt` by default. */
  function Target(args: Args): string
  {
    FileToCreate(args.path.GetOr("/tmp/"), args.name.GetOr("gene-results.txt"))
  }

  /** `run_module`. */
  method RunModule(host: Host, args: Args, checkMode: bool, env: Env) returns (out: Outcome<Result>)
    modifies host
    ensures args.gldsStudyIds.None? ==> out == Rejected && host.files == old(host.files) && host.log == old(host.log)
    ensures args.gldsStudyIds.Some? ==>
      var url, target := RequestUrl(args), Target(args);
      var status := host.net(url).status;
      // check mode reports the URL and the file, status 0, no request, no write
      && (checkMode ==> out == Exit(Result(false, url, 0, target))
                        && host.files == old(host.files) && host.log == old(host.log))
      && (!checkMode ==> host.log == old(host.log) + [url])
      // `fail_json` without `msg` raises, so a non-200 ends with no result
      && (!checkMode && status != 200 ==> out == Crash && host.files == old(host.files))
      && (!checkMode && status == 200 && host.net(url).json.None? ==> out == Crash && host.files == old(host.files))
      // a 200 with JSON: the text is appended to whatever the file held
      && (!checkMode && status == 200 && host.net(url).json.Some? ==>
            var text := Output(host.net(url).json.value, env.repr);
            && host.files == old(host.files)[target := (if target in old(host.files) then old(host.files)[target] else "") + text.text]
            && out == if text.complete then Exit(Result(true, url, 200, target)) else Crash)
  {
    if args.gldsStudyIds.None? {
      return Rejected;
    }
    var result := SEED;
    var nasaApi := Url(args.gldsStudyIds.value, args.pageNumber.GetOr(0), args.resultsPerPage.GetOr(25));
    result := result.(apiLookedup := nasaApi);
    var fileToCreate := FileToCreate(args.path.GetOr("/tmp/"), args.name.GetOr("gene-results.txt"));
    result := result.(filemade := fileToCreate);
    if checkMode {
      return Exit(result);
    }
    var apilookup := host.Get(nasaApi);
    result := result.(statusCode := apilookup.status);
    if apilookup.status != 200 {
      return Crash;
    }
    if apilookup.json.None? {
      return Crash;
    }
    var ok := AppendOutput(host, fileToCreate, apilookup.json.value, env.repr);
    if !ok {
      return Crash;
    }
    result := result.(changed := true);
    return Exit(result);
  }

  /** Two successful runs with the same inputs append the same text twice:
      what the file held before is kept as a prefix. */
  method RunTwice(host: Host, args: Args, env: Env) returns (first: Outcome<Result>, second: Outcome<Result>)
    modifies host
    ensures first.Exit? ==>
      && args.gldsStudyIds.Some? && host.net(RequestUrl(args)).json.Some?
      && second == first
      && var before := if Target(args) in old(host.files) then old(host.files)[Target(args)] else "";
         var text := Output(host.net(RequestUrl(args)).json.value, env.repr).text;
         host.files == old(host.files)[Target(args) := before + text + text]
  {
    first := RunModule(host, args, false, env);
    if first.Exit? {
      ghost var target := Target(args);
      ghost var before := if target in old(host.files) then old(host.files)[target] else "";
      ghost var text := Output(host.net(RequestUrl(args)).json.value, env.repr).text;
      ghost var files1 := host.files;
      assert files1 == old(host.files)[target := before + text];
      assert target in files1 && files1[target] == before + text;
      second := RunModule(host, args, false, env);
      assert host.files == files1[target := before + text + text];
      UpdateTwice(old(host.files), target, before + text, before + text + text);
    } else {
      second := RunModule(host, args, false, env);
    }
  }
}

=== FILE: mars_weather.dfy ===
/** `nasa_mars_weather`: looks up the InSight weather feed and saves the raw
    response text, whatever status came back. */
module NasaMarsWeather {

  import opened Wrappers
  import opened Text
  import opened Values
  import opened Urls
  import opened Ansible

  const INSIGHT := "https://api.nasa.gov/insight_weather/?"
  const NASAAPI := INSIGHT + "api_key="

  /** The module's parameters as given; `name` is required. */
  datatype Args = Args(
    name: Option<string>, fileLoc: Option<string>, version: Option<int>,
    feedtype: Option<string>, apikey: Option<string>)

  datatype Result = Result(changed: bool, marsWeather: Json, savelocation: string, statusCode: int, apisearched: string)

  const SEED := Result(false, Obj([]), "", 0, "")

  /** The URL: key, feed type and version, in this order. */
  function Url(apikey: string, feedtype: string, version: int): (u: string)
    ensures u == INSIGHT + Query([("api_key", apikey), ("feedtype", feedtype), ("ver", IntToString(version))])
  {
    Url3(INSIGHT, "api_key", apikey, "feedtype", feedtype, "ver", IntToString(version));
    assert "api_key" + "=" == "api_key=";
    assert "&" + "feedtype" + "=" == "&feedtype=";
    assert "&" + "ver" + "=" == "&ver=";
    NASAAPI + apikey + "&feedtype=" + feedtype + "&ver=" + IntToString(version)
  }

  /** The query gives back the key, the feed type and the version. */
  lemma UrlDecodes(apikey: string, feedtype: string, version: int)
    requires '&' !in apikey && '&' !in feedtype
    ensures var u := Url(apikey, feedtype, version);
      && u[..|INSIGHT|] == INSIGHT
      && var ps := ParseQuery(u[|INSIGHT|..]);
      && |ps| == 3 && ps[0] == ("api_key", apikey) && ps[1] == ("feedtype", feedtype)
      && ps[2].0 == "ver" && ParseInt(ps[2].1) == Some(version)
  {
    var ps := [("api_key", apikey), ("feedtype", feedtype), ("ver", IntToString(version))];
    assert !IsDigit('&');
    assert Plain(ps);
    UrlRoundTrip(INSIGHT, ps);
    IntRoundTrip(version);
  }

  /** `savelocation`: the directory, `/`, the name; no slash is stripped and
      no extension added. */
  function SaveLocation(fileLoc: string, name: string): (path: string)
    ensures |path| == |fileLoc| + 1 + |name|
    ensures path[..|fileLoc|] == fileLoc && path[|fileLoc|] == '/' && path[|fileLoc| + 1..] == name
  {
    fileLoc + "/" + name
  }

  /** `run_module`. */
  method RunModule(host: Host, args: Args, checkMode: bool) returns (out: Outcome<Result>)
    modifies host
    ensures args.name.None? ==> out == Rejected && host.files == old(host.files) && host.log == old(host.log)
    ensures args.name.Some? ==>
      var saveloc := SaveLocation(args.fileLoc.GetOr("/tmp"), args.name.value);
      var url := Url(args.apikey.GetOr("DEMO_KEY"), args.feedtype.GetOr("json"), args.version.GetOr(1));
      var r := host.net(url);
      // check mode reports where and what, status 0, no request, no write
      && (checkMode ==> out == Exit(SEED.(savelocation := saveloc, apisearched := url))
                        && host.files == old(host.files) && host.log == old(host.log))
      && (!checkMode ==> host.log == old(host.log) + [url])
      // a body that is not JSON raises before the write
      && (!checkMode && r.json.None? ==> out == Crash && host.files == old(host.files))
      // any status at all: the raw text replaces `<savelocation>.txt`
      && (!checkMode && r.json.Some? ==>
            && host.files == old(host.files)[saveloc + ".txt" := r.text]
            && out == Exit(Result(true, r.json.value, saveloc, r.status, url)))
  {
    if args.name.None? {
      return Rejected;
    }
    var result := SEED;
    var saveloc := SaveLocation(args.fileLoc.GetOr("/tmp"), args.name.value);
    result := result.(savelocation := saveloc);
    var api := Url(args.apikey.GetOr("DEMO_KEY"), args.feedtype.GetOr("json"), args.version.GetOr(1));
    result := result.(apisearched := api);
    if checkMode {
      return Exit(result);
    }
    var r := host.Get(api);
    result := result.(statusCode := r.status);
    if r.json.None? {
      return Crash;
    }
    result := result.(marsWeather := r.json.value);
    host.Open(saveloc + ".txt", false);
    host.Write(saveloc + ".txt", r.text);
    assert "" + r.text == r.text;
    result := result.(changed := true);
    return Exit(result);
  }
}

=== FILE: neow.dfy ===
/** `nasa_neow`: looks up the Near Earth Object feed between two dates,
    converts the JSON to YAML and saves it once per date range. */
module NasaNeow {

  import opened Wrappers
  import opened Values
  import opened Urls
  import opened Ansible

  const NASANEOW := "https://api.nasa.gov/neo/rest/v1/feed?"

  /** The module's parameters as given; `startdate` and `enddate` are required. */
  datatype Args = Args(startdate: Option<string>, enddate: Option<string>, apikey: Option<string>, savepath: Option<string>)

  /** The result dict. `statusCode` is `None` while it still holds its seed `''`. */
  datatype Result = Result(
    changed: bool, originalNasaJson: Json, statusCode: Option<int>, fileLoc: string,
    yamlOutputFile: string, startDate: string, endDate: string)

  const SEED := Result(false, Str(""), None, "", "", "", "")

  /** The URL for two dates and a key: the three pairs in this fixed order. */
  function Url(sd: string, ed: string, ak: string): (u: string)
    ensures u == NASANEOW + Query([("start_date", sd), ("end_date", ed), ("api_key", ak)])
  {
    Url3(NASANEOW, "start_date", sd, "end_date", ed, "api_key", ak);
    assert "start_date" + "=" == "start_date=";
    assert "&" + "end_date" + "=" == "&end_date=";
    assert "&" + "api_key" + "=" == "&api_key=";
    NASANEOW + "start_date=" + sd + "&end_date=" + ed + "&api_key=" + ak
  }

  /** The query decodes to the two dates and the key, in this order. */
  lemma UrlDecodes(sd: string, ed: string, ak: string)
    requires Plain([("start_date", sd), ("end_date", ed), ("api_key", ak)])
    ensures Url(sd, ed, ak)[..|NASANEOW|] == NASANEOW
    ensures ParseQuery(Url(sd, ed, ak)[|NASANEOW|..]) == [("start_date", sd), ("end_date", ed), ("api_key", ak)]
  {
    UrlRoundTrip(NASANEOW, [("start_date", sd), ("end_date", ed), ("api_key", ak)]);
  }

  /** The saved file's name, `neow-<start>to<end>.yml`. */
  function FileName(sd: string, ed: string): (name: string)
    ensures |name| == 5 + |sd| + 2 + |ed| + 4
    ensures name[..5] == "neow-" && name[5..5 + |sd|] == sd
    ensures name[5 + |sd|..7 + |sd|] == "to" && name[7 + |sd|..|name| - 4] == ed && name[|name| - 4..] == ".yml"
  {
    "neow-" + sd + "to" + ed + ".yml"
  }

  /** The path written: `savepath` (default: the working directory) and the
      file name with no separator between them. */
  function Target(sp: string, sd: string, ed: string): (path: string)
    ensures |path| >= |sp| && path[..|sp|] == sp && path[|sp|..] == FileName(sd, ed)
  {
    sp + FileName(sd, ed)
  }

  /** `run_module`. */
  method RunModule(host: Host, args: Args, checkMode: bool, env: Env) returns (out: Outcome<Result>)
    modifies host
    // both dates are required
    ensures args.startdate.None? || args.enddate.None? ==>
      out == Rejected && host.files == old(host.files) && host.log == old(host.log)
    ensures args.startdate.Some? && args.enddate.Some? ==>
      var sd, ed := args.startdate.value, args.enddate.value;
      var url := Url(sd, ed, args.apikey.GetOr("DEMO_KEY"));
      var sp := args.savepath.GetOr(env.cwd);
      var target := Target(sp, sd, ed);
      // check mode: the seed result, no request, no write
      && (checkMode ==> out == Exit(SEED) && host.files == old(host.files) && host.log == old(host.log))
      // otherwise exactly one GET
      && (!checkMode ==> host.log == old(host.log) + [url])
      && (!checkMode && host.net(url).status != 200 ==> out == Fail(SEED) && host.files == old(host.files))
      && (!checkMode && host.net(url).status == 200 && host.net(url).json.None? ==>
            out == Crash && host.files == old(host.files))
      // a 200 with JSON: written only if nothing is at the target yet
      && (!checkMode && host.net(url).status == 200 && host.net(url).json.Some? ==>
            var nasaJson := host.net(url).json.value;
            && host.files == (if target in old(host.files) then old(host.files)
                              else old(host.files)[target := env.yamlDump(nasaJson)])
            && out == Exit(Result(target !in old(host.files), nasaJson, Some(200), sp, FileName(sd, ed), sd, ed)))
  {
    if args.startdate.None? || args.enddate.None? {
      return Rejected;
    }
    var sd, ed := args.startdate.value, args.enddate.value;
    var ak := args.apikey.GetOr("DEMO_KEY");
    var sp := args.savepath.GetOr(env.cwd);
    var result := SEED;
    if checkMode {
      return Exit(result);
    }
    var lookMeUp := Url(sd, ed, ak);
    var resp := host.Get(lookMeUp);
    if resp.status != 200 {
      return Fail(result);
    }
    if resp.json.None? {
      return Crash;
    }
    var nasaJson := resp.json.value;
    var nasaYaml := env.yamlDump(nasaJson);
    var path := Target(sp, sd, ed);
    assert host.files == old(host.files);
    if !host.IsFile(path) {
      host.Open(path, false);
      host.Write(path, nasaYaml);
      assert "" + nasaYaml == nasaYaml;
      result := result.(changed := true);
    }
    result := result.(originalNasaJson := nasaJson, statusCode := Some(resp.status), fileLoc := sp,
                      yamlOutputFile := FileName(sd, ed), startDate := sd, endDate := ed);
    return Exit(result);
  }

  /** Two runs with the same inputs: once the first has succeeded, the second
      leaves the disk as it was and reports `changed = false`. */
  method RunTwice(host: Host, args: Args, env: Env)
    returns (first: Outcome<Result>, second: Outcome<Result>, ghost filesAfterFirst: map<string, string>)
    modifies host
    ensures first.Exit? ==> second == Exit(first.result.(changed := false)) && host.files == filesAfterFirst
    ensures first.Exit? ==>
      && args.startdate.Some? && args.enddate.Some?
      && Target(args.savepath.GetOr(env.cwd), args.startdate.value, args.enddate.value) in host.files
  {
    first := RunModule(host, args, false, env);
    filesAfterFirst := host.files;
    second := RunModule(host, args, false, env);
  }
}

=== FILE: rover.dfy ===
/** `nasa_mars_rover_photos`: looks up the photos a Mars rover took on one sol
    and hands the JSON back; nothing is written. */
module NasaMarsRoverPhotos {

  import opened Wrappers
  import opened Values
  import opened Urls
  import opened Ansible

  const ROVERS := "https://api.nasa.gov/mars-photos/api/v1/rovers/"
  const PHOTOS := "/photos?"

  /** The module's parameters as given; `roverName` is required. */
  datatype Args = Args(roverName: Option<string>, sol: Option<string>, apikey: Option<string>)

  /** The result dict; `json` holds its seed `''` until the response is decoded. */
  datatype Result = Result(changed: bool, nasaUrl: string, roverName: string, json: Json)

  const SEED := Result(false, "", "", Str(""))

  /** The photos URL: the rover in the path, then the sol and the key. */
  function Url(rover: string, sol: string, apikey: string): (u: string)
    ensures u == ROVERS + rover + PHOTOS + Query([("sol", sol), ("api_key", apikey)])
  {
    Url2(ROVERS + rover + PHOTOS, "sol", sol, "api_key", apikey);
    assert "sol" + "=" == "sol=";
    assert "&" + "api_key" + "=" == "&api_key=";
    ROVERS + rover + PHOTOS + "sol=" + sol + "&api_key=" + apikey
  }

  /** The rover can be read back from the path (it holds no `/`), and the query
      gives back the sol and the key. */
  lemma UrlDecodes(rover: string, sol: string, apikey: string)
    requires '/' !in rover && '&' !in sol && '&' !in apikey
    ensures var u := Url(rover, sol, apikey);
      && u[..|ROVERS|] == ROVERS
      && var rest := u[|ROVERS|..];
      && |rest| >= |rover| + |PHOTOS|
      && rest[..|rover|] == rover && rest[|rover|..|rover| + |PHOTOS|] == PHOTOS
      && (forall k :: 0 <= k < |rover| ==> rest[k] != '/')
      && rest[|rover|] == '/'
      && ParseQuery(rest[|rover| + |PHOTOS|..]) == [("sol", sol), ("api_key", apikey)]
  {
    var ps := [("sol", sol), ("api_key", apikey)];
    var u := Url(rover, sol, apikey);
    var rest := rover + PHOTOS + Query(ps);
    assert u == ROVERS + rest;
    assert u[|ROVERS|..] == rest;
    assert rest[|rover| + |PHOTOS|..] == Query(ps);
    assert forall k :: 0 <= k < |rover| ==> rest[k] == rover[k];
    QueryRoundTrip(ps);
  }

  /** `run_module`. */
  method RunModule(host: Host, args: Args, checkMode: bool) returns (out: Outcome<Result>)
    modifies host`log
    ensures host.files == old(host.files)
    ensures args.roverName.None? ==> out == Rejected && host.log == old(host.log)
    ensures args.roverName.Some? ==>
      var rover := args.roverName.value;
      var url := Url(rover, args.sol.GetOr("1000"), args.apikey.GetOr("DEMO_KEY"));
      var resp := host.net(url);
      var reported := SEED.(roverName := rover, nasaUrl := url);
      && (checkMode ==> out == Exit(reported) && host.log == old(host.log))
      && (!checkMode ==> host.log == old(host.log) + [url])
      // any status at all: the decoded body is reported, and nothing ever changes
      && (!checkMode && resp.json.None? ==> out == Crash)
      && (!checkMode && resp.json.Some? ==> out == Exit(reported.(json := resp.json.value)))
    ensures out.Exit? ==> !out.result.changed
  {
    if args.roverName.None? {
      return Rejected;
    }
    var result := SEED;
    result := result.(roverName := args.roverName.value);
    var nasaurl2lookup := Url(args.roverName.value, args.sol.GetOr("1000"), args.apikey.GetOr("DEMO_KEY"));
    result := result.(nasaUrl := nasaurl2lookup);
    if checkMode {
      return Exit(result);
    }
    var r := host.Get(nasaurl2lookup);
    if r.json.None? {
      return Crash;
    }
    result := result.(json := r.json.value);
    return Exit(result);
  }
}

=== FILE: text.dfy ===
/** String operations the connectors use through Python's `str` methods and
    f-string formatting: `rstrip`, `"".join`, joining with a separator, and
    the decimal rendering of integers. Each comes with the inverse or the
    characterisation that pins it down. */
module Text {

  import opened Wrappers

  /** Python's `s.rstrip(c)` for a single character: every trailing `c` is removed. */
  function RStrip(s: string, c: char): (r: string)
    ensures r <= s
    ensures r == [] || r[|r| - 1] != c
    ensures forall i :: |r| <= i < |s| ==> s[i] == c
  {
    if s == [] || s[|s| - 1] != c then s else RStrip(s[..|s| - 1], c)
  }

  /** Stripping is insensitive to how many trailing `c` there were to begin with. */
  lemma {:induction false} RStripIgnoresTrailing(s: string, c: char, k: nat)
    ensures RStrip(s + seq(k, _ => c), c) == RStrip(s, c)
  {
    if k > 0 {
      var t := s + seq(k - 1, _ => c);
      assert s + seq(k, _ => c) == t + [c];
      assert (t + [c])[..|t|] == t;
      RStripIgnoresTrailing(s, c, k - 1);
    } else {
      assert s + seq(k, _ => c) == s;
    }
  }

  /** One trailing `c` after a text that does not end in `c` is all `rstrip` removes. */
  lemma RStripOne(s: string, c: char)
    requires s == [] || s[|s| - 1] != c
    ensures RStrip(s + [c], c) == s
  {
    assert (s + [c])[..|s|] == s;
  }

  lemma AppendAssoc(a: string, b: string, c: string)
    ensures a + b + c == a + (b + c)
  {
  }

  /** `"".join(parts)`. */
  function Concat(parts: seq<string>): string
  {
    if parts == [] then "" else Concat(parts[..|parts| - 1]) + parts[|parts| - 1]
  }

  /** Concatenating two lists of parts is concatenating their concatenations. */
  lemma {:induction false} ConcatAppend(a: seq<string>, b: seq<string>)
    ensures Concat(a + b) == Concat(a) + Concat(b)
  {
    if b != [] {
      var init := b[..|b| - 1];
      assert (a + b)[..|a + b| - 1] == a + init;
      ConcatAppend(a, init);
      AppendAssoc(Concat(a), Concat(init), b[|b| - 1]);
    } else {
      assert a + b == a;
    }
  }

  /** `"".join` is `sep.join` with the empty separator. */
  lemma {:induction false} ConcatIsJoin(parts: seq<string>)
    ensures Concat(parts) == Join(parts, "")
  {
    if |parts| > 1 {
      ConcatIsJoin(parts[..|parts| - 1]);
      assert Join(parts, "") == Join(parts[..|parts| - 1], "") + "" + parts[|parts| - 1];
    } else if |parts| == 1 {
      assert parts[..0] == [];
    }
  }

  /** `sep.join(parts)`. */
  function Join(parts: seq<string>, sep: string): string
  {
    if |parts| == 0 then ""
    else if |parts| == 1 then parts[0]
    else Join(parts[..|parts| - 1], sep) + sep + parts[|parts| - 1]
  }

  /** `s.split(c)`: the pieces between occurrences of `c`; never empty. */
  function Split(s: string, c: char): (pieces: seq<string>)
    ensures |pieces| >= 1
  {
    if s == [] then [""]
    else if s[0] == c then [""] + Split(s[1..], c)
    else
      var rest := Split(s[1..], c);
      [[s[0]] + rest[0]] + rest[1..]
  }

  /** Cuts `s` at its first `c`: the text before it and the text after it
      (`s` and the empty string when there is no `c`). */
  function Cut(s: string, c: char): (string, string)
  {
    if s == [] then ("", "")
    else if s[0] == c then ("", s[1..])
    else
      var (before, after) := Cut(s[1..], c);
      ([s[0]] + before, after)
  }

  lemma {:induction false} SplitWithout(s: string, c: char)
    requires c !in s
    ensures Split(s, c) == [s]
  {
    if s != [] {
      assert c !in s[1..] by { assert forall x :: x in s[1..] ==> x in s; }
      SplitWithout(s[1..], c);
      assert [s[0]] + s[1..] == s;
    }
  }

  /** Splitting distributes over a separator occurrence. */
  lemma {:induction false} SplitAround(a: string, b: string, c: char)
    ensures Split(a + [c] + b, c) == Split(a, c) + Split(b, c)
  {
    if a == [] {
      assert a + [c] + b == [c] + b;
      assert ([c] + b)[1..] == b;
    } else {
      assert (a + [c] + b)[0] == a[0];
      assert (a + [c] + b)[1..] == a[1..] + [c] + b;
      SplitAround(a[1..], b, c);
    }
  }

  /** Splitting a join recovers the parts, as long as no part holds the separator. */
  lemma {:induction false} SplitJoin(parts: seq<string>, c: char)
    requires |parts| >= 1
    requires forall i :: 0 <= i < |parts| ==> c !in parts[i]
    ensures Split(Join(parts, [c]), c) == parts
  {
    if |parts| == 1 {
      SplitWithout(parts[0], c);
    } else {
      var init := parts[..|parts| - 1];
      var last := parts[|parts| - 1];
      SplitJoin(init, c);
      SplitAround(Join(init, [c]), last, c);
      SplitWithout(last, c);
      assert Join(parts, [c]) == Join(init, [c]) + [c] + last;
      assert init + [last] == parts;
    }
  }

  /** Cutting a `key c value` text at its first `c` gives back the key and the value. */
  lemma {:induction false} CutJoined(key: string, value: string, c: char)
    requires c !in key
    ensures Cut(key + [c] + value, c) == (key, value)
  {
    if key == [] {
      assert key + [c] + value == [c] + value;
      assert ([c] + value)[1..] == value;
    } else {
      assert (key + [c] + value)[1..] == key[1..] + [c] + value;
      assert c !in key[1..] by { assert forall x :: x in key[1..] ==> x in key; }
      CutJoined(key[1..], value, c);
      assert [key[0]] + key[1..] == key;
    }
  }

  predicate IsDigit(ch: char)
  {
    '0' <= ch <= '9'
  }

  function Digit(d: nat): (ch: char)
    requires d < 10
  {
    "0123456789"[d]
  }

  /** Decimal rendering of a natural number, as Python's `str` gives it. */
  function NatToString(n: nat): (r: string)
    ensures |r| >= 1
    ensures forall i :: 0 <= i < |r| ==> IsDigit(r[i])
    ensures r[0] == '0' ==> n == 0
  {
    if n < 10 then [Digit(n)] else NatToString(n / 10) + [Digit(n % 10)]
  }

  /** Python's `str(i)` for an `int`: a minus sign before the digits of a negative number. */
  function IntToString(i: int): (r: string)
    ensures |r| >= 1
    ensures forall k :: 0 <= k < |r| ==> IsDigit(r[k]) || r[k] == '-'
  {
    if i < 0 then "-" + NatToString(-i) else NatToString(i)
  }

  /** Reads a string of decimal digits back as a number. */
  function ParseNat(s: string): int
    requires forall i :: 0 <= i < |s| ==> IsDigit(s[i])
  {
    if s == [] then 0 else ParseNat(s[..|s| - 1]) * 10 + (s[|s| - 1] as int - '0' as int)
  }

  predicate AllDigits(s: string)
  {
    |s| >= 1 && forall i :: 0 <= i < |s| ==> IsDigit(s[i])
  }

  /** Python's `int(s)` restricted to an optional `-` followed by decimal digits. */
  function ParseInt(s: string): (r: Option<int>)
  {
    if |s| >= 2 && s[0] == '-' && AllDigits(s[1..]) then Some(-ParseNat(s[1..]))
    else if AllDigits(s) then Some(ParseNat(s))
    else None
  }

  lemma {:induction false} NatRoundTrip(n: nat)
    ensures ParseNat(NatToString(n)) == n
  {
    if n >= 10 {
      var init := NatToString(n / 10);
      assert NatToString(n) == init + [Digit(n % 10)];
      assert (init + [Digit(n % 10)])[..|init|] == init;
      NatRoundTrip(n / 10);
    }
  }

  /** The decimal rendering of an integer reads back as that integer. */
  lemma {:induction false} IntRoundTrip(i: int)
    ensures ParseInt(IntToString(i)) == Some(i)
  {
    if i < 0 {
      var digits := NatToString(-i);
      var s := "-" + digits;
      assert s[1..] == digits;
      assert AllDigits(digits);
      NatRoundTrip(-i);
      assert ParseInt(s) == Some(-ParseNat(digits));
    } else {
      var s := NatToString(i);
      assert IsDigit(s[0]);
      assert AllDigits(s);
      NatRoundTrip(i);
    }
  }
}

=== FILE: tle.dfy ===
/** `nasa_tle`: looks up two-line element sets, by satellite name, by catalogue
    number, or the whole listing. Nothing on the host changes. */
module NasaTle {

  import opened Wrappers
  import opened Text
  import opened Values
  import opened Ansible

  const API := "https://tle.ivanstanojevic.me/api/tle/"
  const SEARCH := "?search="

  /** The module's parameters as given; they are mutually exclusive. */
  datatype Args = Args(satName: Option<string>, satNum: Option<int>)

  datatype Result = Result(changed: bool, json: Json, url: string, status: int)

  const SEED := Result(false, Obj([]), "", 0)

  /** What is asked for. */
  datatype TleRequest = Search(name: string) | Satellite(num: int) | Listing

  /** The if/elif: a name that is set and not empty wins; otherwise a number
      that is set and not zero; otherwise the listing. */
  function Select(args: Args): (r: TleRequest)
    ensures r.Search? <==> args.satName.Some? && args.satName.value != ""
    ensures r.Search? ==> r.name == args.satName.value
    ensures r.Satellite? <==> !r.Search? && args.satNum.Some? && args.satNum.value != 0
    ensures r.Satellite? ==> r.num == args.satNum.value
  {
    if args.satName.Some? && args.satName.value != "" then Search(args.satName.value)
    else if args.satNum.Some? && args.satNum.value != 0 then Satellite(args.satNum.value)
    else Listing
  }

  /** The URL for a request. */
  function TleUrl(r: TleRequest): (u: string)
    ensures |u| >= |API| && u[..|API|] == API
    ensures u == API <==> r.Listing?
  {
    match r
    case Search(name) => API + SEARCH + name
    case Satellite(num) => API + IntToString(num)
    case Listing => API
  }

  /** Reads a URL of this service back as a request. */
  function ParseTleUrl(u: string): Option<TleRequest>
  {
    if |u| < |API| || u[..|API|] != API then None
    else
      var rest := u[|API|..];
      if rest == [] then Some(Listing)
      else if |rest| >= |SEARCH| && rest[..|SEARCH|] == SEARCH then Some(Search(rest[|SEARCH|..]))
      else match ParseInt(rest)
        case Some(n) => Some(Satellite(n))
        case None => None
  }

  /** Each request has its own URL: the URL gives the request back. */
  lemma UrlRoundTrip(r: TleRequest)
    ensures ParseTleUrl(TleUrl(r)) == Some(r)
  {
    var u := TleUrl(r);
    assert u[..|API|] == API;
    match r {
      case Search(name) =>
        assert u[|API|..] == SEARCH + name;
      case Satellite(num) =>
        var digits := IntToString(num);
        assert u[|API|..] == digits;
        assert digits[0] != SEARCH[0];
        IntRoundTrip(num);
      case Listing =>
    }
  }

  /** Catalogue number 0 is taken as no number at all. */
  lemma ZeroIsListing()
    ensures Select(Args(None, Some(0))) == Listing
    ensures TleUrl(Select(Args(None, Some(0)))) == API
  {
  }

  /** `run_module`. */
  method RunModule(host: Host, args: Args, checkMode: bool) returns (out: Outcome<Result>)
    modifies host`log
    // both parameters: refused before any URL or request
    ensures args.satName.Some? && args.satNum.Some? ==> out == Rejected && host.log == old(host.log)
    ensures !(args.satName.Some? && args.satNum.Some?) ==>
      var url := TleUrl(Select(args));
      var resp := host.net(url);
      && (checkMode ==> out == Exit(SEED.(url := url)) && host.log == old(host.log))
      && (!checkMode ==> host.log == old(host.log) + [url])
      && (!checkMode && resp.status != 200 ==> out == Fail(SEED.(url := url, status := resp.status)))
      && (!checkMode && resp.status == 200 && resp.json.None? ==> out == Crash)
      && (!checkMode && resp.status == 200 && resp.json.Some? ==> out == Exit(Result(false, resp.json.value, url, 200)))
    // never a change, never a write
    ensures out.Exit? || out.Fail? ==> !out.result.changed
    ensures host.files == old(host.files)
  {
    if args.satName.Some? && args.satNum.Some? {
      return Rejected;
    }
    var result := SEED;
    var api := API;
    if args.satName.Some? && args.satName.value != "" {
      api := api + SEARCH + args.satName.value;
    } else if args.satNum.Some? && args.satNum.value != 0 {
      api := api + IntToString(args.satNum.value);
    }
    result := result.(url := api);
    if checkMode {
      return Exit(result);
    }
    var r := host.Get(api);
    result := result.(status := r.status);
    if r.status != 200 {
      return Fail(result);
    }
    if r.json.None? {
      return Crash;
    }
    result := result.(json := r.json.value);
    return Exit(result);
  }
}

=== FILE: urls.dfy ===
/** Query strings as the connectors write them: `key=value` pairs joined by
    `&`, values inserted verbatim (no percent-encoding). The parser is the
    partner that shows a composed query carries exactly its pairs, in order. */
module Urls {

  import opened Text

  type Pair = (string, string)

  function Pairs(ps: seq<Pair>): (texts: seq<string>)
    ensures |texts| == |ps|
  {
    seq(|ps|, i requires 0 <= i < |ps| => ps[i].0 + "=" + ps[i].1)
  }

  /** The query string `k1=v1&k2=v2&...`. */
  function Query(ps: seq<Pair>): string
  {
    Join(Pairs(ps), "&")
  }

  /** Reads a query string back into its pairs, cutting each at its first `=`. */
  function ParseQuery(q: string): seq<Pair>
  {
    if q == [] then []
    else
      var pieces := Split(q, '&');
      seq(|pieces|, i requires 0 <= i < |pieces| => Cut(pieces[i], '='))
  }

  /** The pairs can be recovered: no key holds `&` or `=`, no value holds `&`. */
  predicate Plain(ps: seq<Pair>)
  {
    forall i :: 0 <= i < |ps| ==> '&' !in ps[i].0 && '=' !in ps[i].0 && '&' !in ps[i].1
  }

  lemma {:induction false} JoinEndsWithLast(parts: seq<string>, sep: string)
    requires |parts| >= 1
    ensures |Join(parts, sep)| >= |parts[|parts| - 1]|
  {
  }

  /** Adding one pair at the end of a query. */
  lemma {:induction false} QuerySnoc(ps: seq<Pair>, key: string, value: string)
    ensures Query(ps + [(key, value)]) == if ps == [] then key + "=" + value else Query(ps) + "&" + key + "=" + value
  {
    var texts := Pairs(ps + [(key, value)]);
    assert texts[..|ps|] == Pairs(ps);
    assert texts[|ps|] == key + "=" + value;
  }

  /** A URL whose query has two pairs, spelled out piece by piece. */
  lemma {:induction false} Url2(base: string, k1: string, v1: string, k2: string, v2: string)
    ensures base + Query([(k1, v1), (k2, v2)]) == base + (k1 + "=") + v1 + ("&" + k2 + "=") + v2
  {
    QuerySnoc([], k1, v1);
    QuerySnoc([(k1, v1)], k2, v2);
    assert [(k1, v1)] + [(k2, v2)] == [(k1, v1), (k2, v2)];
  }

  /** A URL whose query has three pairs, spelled out piece by piece. */
  lemma {:induction false} Url3(base: string, k1: string, v1: string, k2: string, v2: string, k3: string, v3: string)
    ensures base + Query([(k1, v1), (k2, v2), (k3, v3)])
         == base + (k1 + "=") + v1 + ("&" + k2 + "=") + v2 + ("&" + k3 + "=") + v3
  {
    var p2 := [(k1, v1), (k2, v2)];
    assert p2 + [(k3, v3)] == [(k1, v1), (k2, v2), (k3, v3)];
    QuerySnoc(p2, k3, v3);
    Url2(base, k1, v1, k2, v2);
    Tail(base, Query(p2), k3, v3);
  }

  /** A URL whose query has four pairs, spelled out piece by piece. */
  lemma {:induction false} Url4(base: string, k1: string, v1: string, k2: string, v2: string,
                                k3: string, v3: string, k4: string, v4: string)
    ensures base + Query([(k1, v1), (k2, v2), (k3, v3), (k4, v4)])
         == base + (k1 + "=") + v1 + ("&" + k2 + "=") + v2 + ("&" + k3 + "=") + v3 + ("&" + k4 + "=") + v4
  {
    var p3 := [(k1, v1), (k2, v2), (k3, v3)];
    assert p3 + [(k4, v4)] == [(k1, v1), (k2, v2), (k3, v3), (k4, v4)];
    QuerySnoc(p3, k4, v4);
    Url3(base, k1, v1, k2, v2, k3, v3);
    Tail(base, Query(p3), k4, v4);
  }

  /** One more pair after a query that is not empty. */
  lemma Tail(base: string, q: string, k: string, v: string)
    ensures base + (q + "&" + k + "=" + v) == base + q + ("&" + k + "=") + v
  {
  }

  /** A query composed from plain pairs parses back to exactly those pairs, in order. */
  lemma QueryRoundTrip(ps: seq<Pair>)
    requires Plain(ps)
    ensures ParseQuery(Query(ps)) == ps
  {
    var texts := Pairs(ps);
    if ps != [] {
      JoinEndsWithLast(texts, "&");
      assert Query(ps) != [];
      forall i | 0 <= i < |texts|
        ensures '&' !in texts[i]
      {
        assert texts[i] == ps[i].0 + ['='] + ps[i].1;
      }
      SplitJoin(texts, '&');
      assert Split(Query(ps), '&') == texts;
      forall i | 0 <= i < |ps|
        ensures Cut(texts[i], '=') == ps[i]
      {
        assert texts[i] == ps[i].0 + ['='] + ps[i].1;
        CutJoined(ps[i].0, ps[i].1, '=');
      }
    }
  }

  /** A URL `base + query` decodes to the base and the pairs of its query. */
  lemma UrlRoundTrip(base: string, ps: seq<Pair>)
    requires Plain(ps)
    ensures (base + Query(ps))[..|base|] == base
    ensures ParseQuery((base + Query(ps))[|base|..]) == ps
  {
    assert (base + Query(ps))[|base|..] == Query(ps);
    QueryRoundTrip(ps);
  }
}

=== FILE: values.dfy ===
/** Decoded JSON as the connectors handle it after `response.json()`: Python
    values with Python's truthiness, `dict.get`, subscription, iteration and
    f-string formatting. Numbers are integers only (floating point is not
    modelled). An object keeps its keys in document order. */
module Values {

  import opened Wrappers
  import opened Text

  datatype Json =
    | Null
    | Bool(b: bool)
    | Num(n: int)
    | Str(s: string)
    | Arr(items: seq<Json>)
    | Obj(fields: seq<(string, Json)>)

  /** Python truthiness: `None`, `False`, `0`, `''`, `[]` and `{}` are false. */
  predicate Truthy(j: Json)
    ensures !Truthy(j) <==> j in {Null, Bool(false), Num(0), Str(""), Arr([]), Obj([])}
  {
    match j
    case Null => false
    case Bool(b) => b
    case Num(n) => n != 0
    case Str(s) => s != ""
    case Arr(items) => items != []
    case Obj(fields) => fields != []
  }

  predicate HasKey(fields: seq<(string, Json)>, key: string)
  {
    exists i :: 0 <= i < |fields| && fields[i].0 == key
  }

  /** The value stored under `key`: that of its first occurrence. */
  function Lookup(fields: seq<(string, Json)>, key: string): (v: Option<Json>)
    ensures v.Some? <==> HasKey(fields, key)
    ensures v.Some? ==> exists i :: 0 <= i < |fields| && fields[i] == (key, v.value)
  {
    if fields == [] then None
    else if fields[0].0 == key then Some(fields[0].1)
    else
      var rest := Lookup(fields[1..], key);
      assert rest.Some? ==> exists i :: 0 <= i < |fields[1..]| && fields[1..][i] == (key, rest.value);
      assert HasKey(fields[1..], key) ==> HasKey(fields, key);
      assert HasKey(fields, key) ==> HasKey(fields[1..], key) by {
        if HasKey(fields, key) {
          var i :| 0 <= i < |fields| && fields[i].0 == key;
          assert i != 0;
          assert fields[1..][i - 1].0 == key;
        }
      }
      rest
  }

  /** `j[key]` with a string key: `None` stands for the `KeyError` or `TypeError` it raises. */
  function Index(j: Json, key: string): (v: Option<Json>)
    ensures v.Some? <==> j.Obj? && HasKey(j.fields, key)
    ensures v.Some? ==> (key, v.value) in j.fields
  {
    if j.Obj? then Lookup(j.fields, key) else None
  }

  /** `j.get(key)`: `None` stands for the `AttributeError` raised when `j` is
      not a dict; a missing key gives Python's `None`, which is JSON null. */
  function Get(j: Json, key: string): (v: Option<Json>)
    ensures v.Some? <==> j.Obj?
    ensures Index(j, key).Some? ==> v == Index(j, key)
    ensures j.Obj? && Index(j, key).None? ==> v == Some(Null)
  {
    match j
    case Obj(fields) => Some(Lookup(fields, key).GetOr(Null))
    case _ => None
  }

  /** `j.get(key)` where the key is itself a value met while iterating:
      iterating a dict yields its keys as strings. `None` stands for the
      `AttributeError` on a non-dict and the `TypeError` raised for an
      unhashable (list or dict) key; any other non-string key is absent. */
  function GetValue(j: Json, key: Json): (v: Option<Json>)
    ensures v.Some? <==> j.Obj? && !key.Arr? && !key.Obj?
    ensures key.Str? ==> v == Get(j, key.s)
    ensures j.Obj? && (key.Null? || key.Bool? || key.Num?) ==> v == Some(Null)
  {
    match j
    case Obj(fields) =>
      if key.Arr? || key.Obj? then None
      else Some(if key.Str? then Lookup(fields, key.s).GetOr(Null) else Null)
    case _ => None
  }

  /** What `for x in j` visits: a list's items, a dict's keys, a string's
      characters; `None` stands for the `TypeError` raised on anything else. */
  function Iterate(j: Json): (xs: Option<seq<Json>>)
    ensures xs.Some? <==> j.Arr? || j.Obj? || j.Str?
    ensures j.Arr? ==> xs == Some(j.items)
    ensures j.Obj? ==> |xs.value| == |j.fields| && forall i :: 0 <= i < |j.fields| ==> xs.value[i] == Str(j.fields[i].0)
    ensures j.Str? ==> |xs.value| == |j.s| && forall i :: 0 <= i < |j.s| ==> xs.value[i] == Str([j.s[i]])
    ensures xs.Some? ==> (Truthy(j) <==> |xs.value| > 0)
  {
    match j
    case Arr(items) => Some(items)
    case Obj(fields) => Some(seq(|fields|, i requires 0 <= i < |fields| => Str(fields[i].0)))
    case Str(s) => Some(seq(|s|, i requires 0 <= i < |s| => Str([s[i]])))
    case _ => None
  }

  /** f-string rendering of a Python `bool`. */
  function BoolToString(b: bool): (r: string)
    ensures r == "True" || r == "False"
    ensures r == "True" <==> b
  {
    if b then "True" else "False"
  }

  /** f-string rendering of a value that is a string or `None`. */
  function OptToString(o: Option<string>): (r: string)
    ensures o.Some? ==> r == o.value
    ensures o.None? ==> r == "None"
  {
    match o
    case Some(s) => s
    case None => "None"
  }

  /** f-string rendering `f"{j}"`. Lists and dicts render through `repr`,
      which is given as a parameter. */
  function Format(j: Json, repr: Json -> string): (r: string)
    ensures j.Null? ==> r == "None"
    ensures j.Bool? ==> r == BoolToString(j.b)
    ensures j.Num? ==> r == IntToString(j.n) && ParseInt(r) == Some(j.n)
    ensures j.Str? ==> r == j.s
    ensures j.Arr? || j.Obj? ==> r == repr(j)
  {
    IntRoundTrip(if j.Num? then j.n else 0);
    match j
    case Null => "None"
    case Bool(b) => BoolToString(b)
    case Num(n) => IntToString(n)
    case Str(s) => s
    case _ => repr(j)
  }
}

=== FILE: wrappers.dfy ===
/** The optional value Python expresses with `None`. */
module Wrappers {

  datatype Option<+T> = None | Some(value: T) {
    /** The value, or `default` when there is none (an Ansible parameter default). */
    function GetOr(default: T): T {
      match this
      case Some(v) => v
      case None => default
    }
  }
}
